=== FILE: README.md ===
# Cache replacement policies, modelled in Dafny

This project models the eviction-policy engine of a cache simulator, and the
simulator step that drives it. There are three replacement policies, all with
the `update(blk, hit)` / `evict(cache)` interface:

- **LRU** keeps one recency-ordered dictionary.
- **LFU with decay** keeps per-block counts. Every `decay_interval` updates it
  multiplies all of them by `decay_factor`.
- **TinyLFU + SLRU** combines four parts:
  - an exact frequency counter over a sliding window;
  - a FIFO probation segment and an LRU protected segment;
  - a bounded ghost FIFO of blocks pushed out of probation;
  - a probation fraction that grows on ghost hits and shrinks periodically.

  The segment targets are recomputed from the fraction.

The `CacheSimulator` holds a set of cached blocks bounded by the cache size.
On every access it counts a hit or a miss and tells its policy. It evicts
before inserting when the cache is full. Then it prefetches block
`(blk % n_blocks) + 1` without counting it.

Every object the source updates in place is a Dafny `class`: `LruPolicy`,
`LfuDecayPolicy`, `TinyLfuSlru` and `CacheSimulator`. Their methods update
`seq`/`map`/`set` fields step by step, as the source does. The policies'
`update` methods, and the scans of LRU's and TinyLFU's `evict`, are proved to
leave exactly the state described by a function on values:

- `Touch`/`EvictStep` for LRU;
- `UpdateStep` for LFU with decay;
- `UpdateStep`/`EvictScan` and their parts for TinyLFU.

The other methods are specified by relations instead. LFU's `evict` returns
a block satisfying the predicate `IsVictim`, a least-frequent member of the
cache. When TinyLFU's scans find nothing, its `evict` returns some member of
the cache. The `CacheSimulator` methods are specified by the relations
`Installed`, `Accessed` and `Prefetched`. These relate the cache before and
after to a ghost trace of the calls made to the policy and what each call
returned.

The lemmas state what the source promises about those functions and relations. Python
exceptions are modelled as results: `Outcome` is `Pass` or `Fail(failure)`, and
`Result` is `Ok(value)` or `Err(failure)`. Each failure carries the state at the
point where the source raises.

Files:
- `outcomes.dfy`: failures, `Outcome`, `Result`, `Option`.
- `containers.dfy`: deques and `OrderedDict` keys as sequences (scan, remove, bounded append).
- `lru.dfy`, `lfu_decay.dfy`: the first two policies.
- `tiny_lfu.dfy`: TinyLFU+SLRU as functions on its state.
- `tiny_lfu_properties.dfy`: the proofs about those functions.
- `tiny_lfu_policy.dfy`: the TinyLFU+SLRU object.
- `simulator.dfy`: the simulator.

Some behaviours of the code are easy to misread. The model follows the code
in each of them:

- **The window pops one access early.** `update` pops the oldest access as soon
  as the window *reaches* its maxlen (policies.py:96). So after every call it
  holds at most `freq_window - 1` accesses, one fewer than the parameter's
  name suggests.
- **Segment sizes can exceed their targets.** `len(prob) <= prob_size` and
  `len(prot) <= prot_size` are not kept. A repartition can lower a target while
  the segment is full, and later insertions pop at most one entry each.
  `ProbationCanExceedTarget` exhibits this on a run from a fresh policy. The model proves the bound the code
  does keep: `len' <= max(len, target)`.
- **An empty candidate set does not give one uniform error.** Each policy fails
  in its own way:
  - LFU raises `ValueError`, from `min` of an empty set.
  - TinyLFU raises `StopIteration`, from `next(iter(...))`.
  - LRU raises `KeyError`, from `popitem`, but only when its order is empty too.
    Otherwise it returns its oldest key even though that key is not a candidate.
    The simulator's `cache.remove` then raises `KeyError`.
- **LRU evicts the least-recent block, never a more recent one.** Take an
  LRU policy driven directly with capacity 2 and the accesses 1, 2, 3, 1.
  There is no simulator here, and so no prefetch. Block 1 is evicted when 3
  arrives (policies.py:16-20), and block 2 when 1 returns. The policy's order
  ends as [3, 1]; `Lru.RecencyScenario` states this. Through `access_block`,
  the prefetches change the run.

## Model

| member | source | states |
|---|---|---|
| Containers.FirstIn | policies.py:17-20 | The scan stops at the first entry that is in `cache`: every earlier entry is outside `cache`, and the result is the length when no entry is in `cache`. |
| Containers.ScanFirstIn | policies.py:144-147 | The loop over the deque stops exactly where `FirstIn` says. |
| Containers.RemoveFirst | policies.py:106 | `deque.remove` / `OrderedDict.pop` takes out one occurrence: the multiset loses one copy of `x`, the length drops by one exactly when `x` was present, and an absent `x` leaves the sequence unchanged. |
| Containers.KeepNewest | policies.py:90 | `deque(s, maxlen=n)` keeps at most `n` entries: all of them when they fit, exactly `n` otherwise, and only entries that were there. `KeepNewestSuffix` states which ones. |
| Containers.KeepNewestSuffix | policies.py:90 | The entries kept are the newest ones of `s`, in order: a suffix of `s`. |
| Containers.BoundedAppend | policies.py:128 | `append` on a deque with maxlen `n`: at most `n` entries, the new entry last whenever `n >= 1`, a plain append while there is room, and no entry that was not there before except `x`. `BoundedAppendFull` states the full case. |
| Containers.BoundedAppendFull | policies.py:128 | On a full deque, `append(x)` drops the oldest entries: the newest `n - 1` old entries stay, in order, followed by `x`. |
| Containers.RemoveFirstAtScan | policies.py:144-147 | Removing the entry a scan stopped at removes exactly that position, because no earlier entry can be equal to it. |
| Containers.RemoveFirstMembers | policies.py:12 | Removing a key from a duplicate-free order keeps it duplicate-free and removes only that key. |
| Containers.RemoveFirstKeepsOrder | policies.py:12 | Removing a key keeps the relative order of every other pair of keys, in both directions. |
| Lru.Touch | policies.py:10-13 | `update` leaves `blk` as the most-recent key, and the keys as a multiset lose one copy of `blk` and gain one: the key is moved, not duplicated. |
| Lru.EvictStep | policies.py:15-23 | `evict` fails exactly when the order is empty. Otherwise the victim is a tracked key, and exactly one copy of it leaves the order. |
| Lru.TouchKeys | policies.py:10-13 | `update` puts `blk` at the most-recent end, keeps keys unique, adds no key but `blk`, and grows the order only when `blk` was new. |
| Lru.TouchKeepsOrder | policies.py:10-13 | `update` leaves every other pair of keys in the same relative order, in both directions. |
| Lru.EvictStepSpec | policies.py:15-23 | `evict` fails with KeyError exactly when the order is empty. When some key is in `cache`, it returns the least-recent such key and removes only that key. Otherwise it pops and returns the oldest key, which is not in `cache`. |
| Lru.EvictKeepsKeys | policies.py:15-23 | A successful `evict` keeps keys unique, returns a key that was tracked, and removes exactly that key. |
| Lru.RecencyScenario | policies.py:10-23 | The policy driven directly with capacity 2 and accesses a, b, c, a: c evicts a, the least recent, and a's return evicts b, leaving the order [c, a]. |
| Lru.LruPolicy.constructor | policies.py:7-8 | Starts with an empty order. |
| Lru.LruPolicy.Update | policies.py:10-13 | The order becomes `Touch(old order, blk)` and stays duplicate-free. |
| Lru.LruPolicy.Evict | policies.py:15-23 | The scan loop returns and removes what `EvictStep` describes, including the KeyError on an empty order. |
| LfuDecay.Decayed | policies.py:38-39 | Decay keeps the set of tracked blocks, and with a non-negative factor it keeps counts non-negative. |
| LfuDecay.UpdateStep | policies.py:34-39 | `update` advances the counter by one and raises ZeroDivisionError exactly when the interval is 0. The interval and factor never change. |
| LfuDecay.UpdateEffect | policies.py:34-39 | `update` adds 1 to `blk`'s count and 1 to the counter. Every block's count is then multiplied by the factor exactly when the new counter is a multiple of the interval. Only `blk` can become tracked. It raises ZeroDivisionError exactly when the interval is 0. |
| LfuDecay.UpdateKeepsNonNegative | policies.py:34-39 | With a non-negative factor, counts stay non-negative. |
| LfuDecay.DecayKeepsVictims | policies.py:37-45 | Decay by a positive factor does not change which blocks `evict` may choose. |
| LfuDecay.DecayScenario | policies.py:34-39 | Interval 2, factor 0.5: a block updated once has count 1, and 0.5 after one unrelated update. A further unrelated update leaves it at 0.5. |
| LfuDecay.DecayAll | policies.py:38-39 | The loop over the tracked keys multiplies every count by the factor and tracks no new key. |
| LfuDecay.LeastFrequent | policies.py:43 | `min(cache, key=...)` returns a block of `cache` whose count, untracked counting as 0, is at most that of every other block of `cache`. |
| LfuDecay.LfuDecayPolicy.constructor | policies.py:28-32 | Starts with no counts and a zero counter. |
| LfuDecay.LfuDecayPolicy.Update | policies.py:34-39 | The object's new state and outcome are those of `UpdateStep`. |
| LfuDecay.LfuDecayPolicy.Evict | policies.py:41-45 | An empty `cache` gives ValueError. Otherwise the result is a least-frequent block of `cache`, and only its entry is dropped. |
| TinyLfu.Init | policies.py:57-82 | The constructed state satisfies the invariant: counts match the window, the segments are disjoint and duplicate-free, the targets follow the fraction, and the ghost is within its bound. |
| TinyLfu.ProbSizeFor | policies.py:86 | The probation target is 1 when `c * fraction < 1`. Otherwise it is the largest integer not above `c * fraction`. |
| TinyLfu.Repartition | policies.py:84-90 | `_repartition` establishes the partition invariant: the targets follow the fraction and sum to `c`, and the ghost fits its target. The ghost only loses entries, and the fraction, segments and window are untouched. |
| TinyLfu.RecordAccess | policies.py:93-99 | Step 1 of `update` raises IndexError exactly when the window's maxlen is 0. Otherwise it leaves fewer than maxlen accesses in the window. Only the window and the counts change. |
| TinyLfu.Promote | policies.py:107-108 | The insertion into protected raises KeyError exactly when protected is empty and its target is 0 or less, and then changes nothing. Otherwise `blk` becomes the most-recent entry and the length stays within `max(len, target)`. Only protected changes. |
| TinyLfu.GhostFeedback | policies.py:113-117 | A ghost hit is counted, the fraction stays at most 0.5, the partition invariant holds, and the ghost only loses entries, one copy of `blk` among them when it held one. Probation, protected, the window and the access count are untouched. |
| TinyLfu.Admit | policies.py:124-129 | A block with a window count below 2 changes nothing. Otherwise it becomes the probation tail, and probation stays within `max(len, probSize)`. Only probation and the ghost change. |
| TinyLfu.Adjust | policies.py:131-140 | The adjustment leaves the access count below the interval or at 0: it either counts the access or resets the count. The segments, window and counts are untouched. |
| TinyLfu.UpdateStep | policies.py:92-140 | `update` raises only IndexError or KeyError, and never changes the capacity, the window's maxlen, the interval or the step. |
| TinyLfu.Serve | policies.py:101-140 | Steps 2 to 5 of `update` raise only KeyError, and leave the window, the counts and the parameters untouched. |
| TinyLfu.EvictScan | policies.py:142-152 | The scans find nothing exactly when neither segment holds a member of `cache`. A victim they find is a member of `cache` and of probation or protected, and the ghost and counts are untouched. |
| TinyLfuProperties.ProbSizeLeavesProtected | policies.py:86-87 | For at least two slots and a fraction of at most one half, probation gets at least 1 slot and protected gets at least 1. |
| TinyLfuProperties.ProbSizeIsFloor | policies.py:86 | The probation target is `floor(c * fraction)`, raised to 1 when that is smaller. |
| TinyLfuProperties.RepartitionSpec | policies.py:84-90 | After `_repartition`, the targets sum to `c` and probation's target is `max(1, floor(c * fraction))`. The ghost keeps its newest entries, in order, up to the new target. Every other field, the parameters included, is unchanged. |
| TinyLfuProperties.FractionMoves | policies.py:114-140 | A ghost hit raises the fraction to `min(0.5, f + step)` and the periodic shrink lowers it to `max(0.05, f - step)`. With a non-negative step, both keep it within [0.05, 0.5]. |
| TinyLfuProperties.RecordAccessWindow | policies.py:93-99 | With a window of maxlen at least 1, step 1 of `update` never raises. The window then holds the newest accesses in order, at most `maxlen - 1` of them, and `freq` counts them exactly. Nothing else changes. |
| TinyLfuProperties.CountAppend | policies.py:94-95 | Appending an access and incrementing its count keeps the counts exact. |
| TinyLfuProperties.CountPop | policies.py:96-99 | Popping the oldest access and decrementing its count keeps the counts exact, with no zero entries. |
| TinyLfuProperties.RecordAccessEmptyWindow | policies.py:94-97 | A window of maxlen 0 makes every `update` raise IndexError after counting `blk`. |
| TinyLfuProperties.WindowCountsSum | policies.py:94-99 | The counts sum to the length of the window. |
| TinyLfuProperties.PromoteSpec | policies.py:107-108 | Moving a block into protected fails with KeyError exactly when protected is empty and its target is 0 or less. Otherwise the block becomes the most-recent entry, after the least-recent one is dropped when the segment is at its target. The length stays within `max(len, target)`, and the segments stay disjoint. |
| TinyLfuProperties.AdmitSpec | policies.py:124-129 | A block with a window count below 2 is admitted nowhere. Otherwise it joins the probation tail; when probation is full, its head first goes to the ghost, which drops its own oldest entry when full. Probation stays within `max(len, probSize)`, and the segments stay disjoint. |
| TinyLfuProperties.HeadToGhost | policies.py:126-129 | Moving the probation head to the bounded ghost and appending a new block keeps the three segments disjoint and duplicate-free. |
| TinyLfuProperties.ShrinkRateTest | policies.py:136-137 | The test `ghost_hits / accesses < 0.1` holds exactly when `10 * ghost_hits < accesses`. |
| TinyLfuProperties.AdjustSpec | policies.py:131-140 | The adjustment counts the access. Once the count reaches the interval, it shrinks the fraction and repartitions exactly when `10 * ghost_hits < accesses`, then resets both counters. The segments are untouched. |
| TinyLfuProperties.AdjustKeepsInv | policies.py:131-140 | The adjustment keeps the segment and partition invariants, can only drop ghost entries, and leaves the count below the interval or at 0. |
| TinyLfuProperties.ProtectedHit | policies.py:102-104 | A protected hit only moves `blk` to the most-recent end of protected, and keeps the invariant. |
| TinyLfuProperties.ProbationHit | policies.py:105-109 | A probation hit moves `blk` out of probation and into protected. It raises KeyError exactly when protected is empty and its target is 0 or less. Protected stays within `max(len, protSize)`, and the invariant holds. |
| TinyLfuProperties.GhostFeedbackSpec | policies.py:113-117 | The bookkeeping of a ghost hit keeps the segments disjoint and the targets consistent, and leaves `blk` in no segment. |
| TinyLfuProperties.GhostHitFeedback | policies.py:112-117 | A ghost hit removes `blk` from the ghost and counts the hit. The fraction becomes `min(0.5, f + step)`, the targets are recomputed, and the ghost is trimmed to the new target. Probation and the access count are untouched. |
| TinyLfuProperties.GhostHit | policies.py:112-121 | After a ghost hit, `blk` enters protected under the recomputed target. KeyError is raised exactly when protected is empty and that target is 0 or less, and the invariant holds. |
| TinyLfuProperties.ColdPath | policies.py:123-129 | On the cold path, a block whose window count is below 2 ends in no segment. Otherwise it is the probation tail. Probation stays within `max(len, probSize)`, protected is untouched, and the invariant holds. |
| TinyLfuProperties.ColdPathAdjustment | policies.py:131-140 | The access count advances on the cold path and is afterwards below the interval or 0. When the count reaches the interval, the fraction shrinks by the step (floored at 0.05) exactly when `10 * ghost_hits < accesses`, and both counters reset. |
| TinyLfuProperties.UpdateKeepsInv | policies.py:92-140 | Every `update` keeps the invariant, including an `update` that raises. |
| TinyLfuProperties.UpdateKeepsFractionInRange | policies.py:92-140 | With a non-negative step, `update` keeps the fraction within [0.05, 0.5]. |
| TinyLfuProperties.EvictScanEmpty | policies.py:142-153 | Both scans come up empty exactly when neither segment holds a member of `cache`. |
| TinyLfuProperties.EvictFromProbation | policies.py:144-147 | When probation holds a member of `cache`, the victim is the first such entry from the head, and only its entry is removed. |
| TinyLfuProperties.EvictFromProtected | policies.py:149-152 | Otherwise, when protected holds a member of `cache`, the victim is the least-recent such entry, and only its entry is removed. |
| TinyLfuProperties.EvictScanKeepsInv | policies.py:142-152 | A successful scan removes exactly one tracked entry, does not write to the ghost, and keeps the invariant. |
| TinyLfuProperties.AdmissionScenario | policies.py:92-129 | Cache 4, fraction 0.25: a block's first access leaves it out of every segment, the second admits it to probation, and the third promotes it to protected. |
| TinyLfuProperties.CacheOfOneRaises | policies.py:105-108 | With cache size 1 the protected target is 0, so the first probation hit raises KeyError from `popitem`. |
| TinyLfuProperties.ColdAccess | policies.py:92-129 | The three first accesses of one block to a fresh policy, exactly: the block is counted, then admitted, then promoted (or KeyError when the protected target is 0 or less). |
| TinyLfuProperties.ProbationCanExceedTarget | policies.py:92-140 | From `Init(4, 0.5, 10, 5, 0.25)`, the updates 1, 1, 2, 2 fill probation with [1, 2] under a target of 2. The cold update 3 ends the adjustment interval with no ghost hit, which lowers the target to 1 while probation keeps [1, 2]. |
| TinyLfuPolicy.TinyLfuSlru.constructor | policies.py:57-82 | The object starts in the state `Init` describes, which satisfies the invariant. |
| TinyLfuPolicy.TinyLfuSlru.Repartition | policies.py:84-90 | The fields change as `Repartition` describes. |
| TinyLfuPolicy.TinyLfuSlru.RecordAccess | policies.py:93-99 | The window and counts change as step 1 of `update` describes, including the IndexError. |
| TinyLfuPolicy.TinyLfuSlru.DropOldest | policies.py:97-99 | `popleft` and the decrement of its count, the entry going at 0. |
| TinyLfuPolicy.TinyLfuSlru.PromoteToProtected | policies.py:107-108 | The insertion into protected, including the KeyError. |
| TinyLfuPolicy.TinyLfuSlru.CountGhostHit | policies.py:113-116 | The ghost entry goes, the hit is counted, and the fraction grows, capped at 0.5. |
| TinyLfuPolicy.TinyLfuSlru.RecordGhostHit | policies.py:112-117 | The bookkeeping of a ghost hit, followed by the repartition. |
| TinyLfuPolicy.TinyLfuSlru.Admit | policies.py:124-129 | The admission filter, in place. |
| TinyLfuPolicy.TinyLfuSlru.Shrink | policies.py:137-138 | The fraction falls by the step, floored at 0.05, and the fields are repartitioned as `Repartition` describes. |
| TinyLfuPolicy.TinyLfuSlru.Adjust | policies.py:131-140 | The periodic adjustment, in place. |
| TinyLfuPolicy.TinyLfuSlru.Serve | policies.py:101-140 | Steps 2 to 5 of `update`, in place. |
| TinyLfuPolicy.TinyLfuSlru.Update | policies.py:92-140 | The new state and outcome are those of `UpdateStep`, and the invariant is kept. |
| TinyLfuPolicy.TinyLfuSlru.Evict | policies.py:142-154 | Returns and removes what the scans find, keeping the invariant. When they find nothing, the state is unchanged and the result is some member of `cache`, or StopIteration on an empty `cache`. |
| Simulator.PyMod | simulator.py:33 | Python's `%`: the remainder differs from `a` by a multiple of `n` and lies in `[0, n)` for positive `n`, `(n, 0]` for negative `n`. |
| Simulator.PrefetchTarget | simulator.py:33 | The prefetch target lies in [1, n_blocks] and is the next block, wrapping from `n_blocks` to 1. `n_blocks == 0` raises ZeroDivisionError. |
| Simulator.RemoveVictim | simulator.py:27-28 | `cache.remove(victim)` succeeds exactly when `evict` returned a member of the cache, and shrinks the cache by one. A failure of `evict` propagates, and a non-member raises KeyError. |
| Simulator.HitRate | simulator.py:41-43 | 0 before any access. Otherwise it lies in [0, 1], and multiplied by the number of accesses it gives the number of hits. |
| Simulator.Installed | simulator.py:26-30 | Defines bringing a block in: when the cache is full, the policy's victim is removed first, and a failed removal stops the step. Then the block is added and the policy is told with `hit=False`. |
| Simulator.Accessed | simulator.py:20-30 | Defines the first half of `access_block`: a cached block calls `update(blk, hit=True)` and changes nothing else. An absent block is brought in as `Installed` defines. |
| Simulator.Prefetched | simulator.py:33-39 | Defines the prefetch: a cached target changes nothing and makes no call. An absent target is brought in as `Installed` defines. |
| Simulator.InstalledGrows | simulator.py:26-30 | Bringing a block in makes at least one policy call and adds no block but itself. It leaves the block cached whenever it succeeds. |
| Simulator.AccessedGrows | simulator.py:20-30 | An access makes at least one policy call and adds no block but `blk`. It leaves `blk` cached whenever it succeeds. |
| Simulator.PrefetchedGrows | simulator.py:33-39 | A prefetch never removes calls from the trace and adds no block but the target. It leaves the target cached whenever it succeeds. |
| Simulator.PrefetchEvictsPrimary | simulator.py:33-39 | With room for one block, prefetching an absent block evicts the block just accessed. |
| Simulator.CacheSimulator.constructor | simulator.py:9-15 | Starts with an empty cache and zero counters. |
| Simulator.CacheSimulator.UpdatePolicy | simulator.py:23 | Dispatches `update` to the policy object, records the call, and leaves the cache and counters alone. |
| Simulator.CacheSimulator.EvictFromPolicy | simulator.py:27 | Dispatches `evict`. Every policy but LRU returns a member of a non-empty cache and fails on an empty one. |
| Simulator.CacheSimulator.Install | simulator.py:26-30 | Evicts first when the cache is full, and a failed removal leaves the cache unchanged. Then it adds the block and calls `update(b, hit=False)`. The cache stays within its size. |
| Simulator.CacheSimulator.Access | simulator.py:20-30 | A hit counts a hit and calls `update(blk, hit=True)`. A miss counts a miss and brings the block in. |
| Simulator.CacheSimulator.Prefetch | simulator.py:32-39 | A cached block is left alone with no policy call. An absent one is brought in, and neither counter changes. |
| Simulator.CacheSimulator.AccessBlock | simulator.py:17-39 | The whole step in terms of the policy's recorded answers. `hits + misses` grows by exactly one, and `hits` grows exactly when `blk` was cached. Only `blk` and the prefetch target can enter the cache, and a successful call leaves the target cached. The cache stays within its size. |
| Simulator.CacheSimulator.GetHitRate | simulator.py:41-43 | As `HitRate`, on the object's counters. |

## Left out

- `workload.py`: the workload generator is a wrapper over random number generators and is not part of this model.
- `test_policy` and `__main__` in `simulator.py` are not part of this model. They cover wall-clock timing, printing and building the policy lists.
- Python floats are exact reals here: the probation fraction, the LFU counts and factor, and the hit rate. IEEE rounding is not modelled.
- Ties in LFU's `min(cache, ...)` and the element `next(iter(cache))` picks both depend on Python's set iteration order. The model states only "some least-frequent member" and "some member".
- The `hit` argument of every `update` is accepted and ignored, as in the source.
- `int(block_id)` in `access_block` is not modelled: block identifiers are integers throughout.
- TinyLfuPolicy.TinyLfuSlru.constructor: `freq_window` is a natural number. `None` (an unbounded window) and the `ValueError` a negative maxlen raises are not modelled.
- The simulator's policy is one of the three policy classes. An arbitrary object with `update` and `evict` methods is not modelled.
- The unused `numpy` and `time` imports in `policies.py` are not modelled.
- Segment sizes within their targets are not stated as an invariant, because the code does not keep them. The per-call bound `len' <= max(len, target)` is proved instead.

=== FILE: containers.dfy ===
/** The ordered containers the policies use, as sequences: a `deque` or the
    keys of an `OrderedDict`, oldest entry first. */
module Containers {

  /** No element occurs twice (the keys of an OrderedDict, and the deques the
      policies keep duplicate-free). */
  ghost predicate NoDup<T(!new)>(s: seq<T>) {
    forall x :: multiset(s)[x] <= 1
  }

  /** Every element of `a` is absent from `b`. */
  ghost predicate Disjoint<T>(a: seq<T>, b: seq<T>) {
    multiset(a) !! multiset(b)
  }

  /** `dict.get(k, d)`. */
  function Get<K, V>(m: map<K, V>, k: K, d: V): V {
    if k in m then m[k] else d
  }

  /** The position a forward scan (`for x in s: if x in cache`) stops at:
      the first element of `s` that is in `cache`, or `|s|` when there is none. */
  function FirstIn<T>(s: seq<T>, cache: set<T>): (i: nat)
    ensures i <= |s|
    ensures forall j :: 0 <= j < i ==> s[j] !in cache
    ensures i < |s| ==> s[i] in cache
  {
    if s == [] then 0
    else if s[0] in cache then 0
    else 1 + FirstIn(s[1..], cache)
  }

  /** The scan itself, as the source writes it: a loop from the oldest entry. */
  method ScanFirstIn<T>(s: seq<T>, cache: set<T>) returns (i: nat)
    ensures i == FirstIn(s, cache)
  {
    i := 0;
    while i < |s| && s[i] !in cache
      invariant i <= |s|
      invariant forall j :: 0 <= j < i ==> s[j] !in cache
    {
      i := i + 1;
    }
  }

  /** `deque.remove(x)` and `OrderedDict.pop(x)`: the first occurrence of `x`
      is taken out and the other elements keep their order. */
  function RemoveFirst<T(==)>(s: seq<T>, x: T): (r: seq<T>)
    ensures multiset(r) == multiset(s) - multiset{x}
    ensures x in s ==> |r| == |s| - 1
    ensures x !in s ==> r == s
  {
    if x in s then
      var i := FirstIn(s, {x});
      assert s == s[..i] + [s[i]] + s[i + 1..];
      s[..i] + s[i + 1..]
    else
      s
  }

  /** `deque(s, maxlen=n)`: the `n` newest elements of `s`, in order. */
  function KeepNewest<T>(s: seq<T>, n: nat): (r: seq<T>)
    ensures |r| <= n
    ensures |s| <= n ==> r == s
    ensures |s| > n ==> |r| == n
    ensures multiset(r) <= multiset(s)
  {
    if |s| <= n then s
    else
      assert s == s[..|s| - n] + s[|s| - n..];
      s[|s| - n..]
  }

  /** `append(x)` on a deque whose maxlen is `n`: when full, the oldest entry
      is silently discarded. */
  function BoundedAppend<T>(s: seq<T>, n: nat, x: T): (r: seq<T>)
    ensures |r| <= n
    ensures n > 0 ==> |r| > 0 && r[|r| - 1] == x
    ensures |s| < n ==> r == s + [x]
    ensures multiset(r) <= multiset(s) + multiset{x}
  {
    KeepNewest(s + [x], n)
  }

  /** The entries `deque(s, maxlen=n)` keeps are the newest ones, in order:
      a suffix of `s`, whose length the contract of `KeepNewest` fixes. */
  lemma KeepNewestSuffix<T>(s: seq<T>, n: nat)
    ensures var r := KeepNewest(s, n);
            r == s[|s| - |r|..]
  {
  }

  /** `append(x)` on a full deque drops exactly its oldest entries: the
      newest `n - 1` old entries stay, in order, followed by `x`. */
  lemma BoundedAppendFull<T>(s: seq<T>, n: nat, x: T)
    requires |s| >= n > 0
    ensures BoundedAppend(s, n, x) == s[|s| + 1 - n..] + [x]
  {
    assert (s + [x])[|s| + 1 - n..] == s[|s| + 1 - n..] + [x];
  }

  /** Removing the element at a scan's stopping point: because every earlier
      element is outside `cache`, it is also the first occurrence of that value. */
  lemma {:induction false} RemoveFirstAtScan<T>(s: seq<T>, cache: set<T>)
    requires FirstIn(s, cache) < |s|
    ensures var i := FirstIn(s, cache);
            RemoveFirst(s, s[i]) == s[..i] + s[i + 1..]
  {
    var i := FirstIn(s, cache);
    var k := FirstIn(s, {s[i]});
    assert k == i;
  }

  /** Membership in a sequence after a `RemoveFirst`, when it held no duplicates. */
  lemma RemoveFirstMembers<T(!new)>(s: seq<T>, x: T, y: T)
    requires NoDup(s)
    ensures NoDup(RemoveFirst(s, x))
    ensures y in RemoveFirst(s, x) <==> y in s && y != x
  {
    var r := RemoveFirst(s, x);
    assert multiset(r)[y] == if y == x then 0 else multiset(s)[y];
  }

  /** `a` comes before `b` in `s` (positions of first occurrences). */
  ghost predicate Precedes<T>(s: seq<T>, a: T, b: T) {
    a in s && b in s && FirstIn(s, {a}) < FirstIn(s, {b})
  }

  /** A scan result is determined by the properties `FirstIn` promises. */
  lemma FirstInUnique<T>(s: seq<T>, cache: set<T>, k: nat)
    requires k <= |s|
    requires forall j :: 0 <= j < k ==> s[j] !in cache
    requires k < |s| ==> s[k] in cache
    ensures FirstIn(s, cache) == k
  {
  }

  /** Deleting position `p` shifts the first occurrence of any other value
      down by one when it lay after `p`, and leaves it alone otherwise. */
  lemma {:induction false} FirstInAfterDelete<T>(s: seq<T>, p: nat, a: T)
    requires p < |s| && a in s && a != s[p]
    ensures a in s[..p] + s[p + 1..]
    ensures var i := FirstIn(s, {a});
            FirstIn(s[..p] + s[p + 1..], {a}) == if i < p then i else i - 1
  {
    var r := s[..p] + s[p + 1..];
    var i := FirstIn(s, {a});
    var k := if i < p then i else i - 1;
    assert r[k] == a;
    forall j | 0 <= j < k
      ensures r[j] !in {a}
    {
      if j < p { assert r[j] == s[j]; } else { assert r[j] == s[j + 1]; }
    }
    FirstInUnique(r, {a}, k);
  }

  /** Appending leaves the first occurrence of a value already present in place. */
  lemma {:induction false} FirstInAfterAppend<T>(s: seq<T>, x: T, a: T)
    requires a in s
    ensures FirstIn(s + [x], {a}) == FirstIn(s, {a})
  {
    var i := FirstIn(s, {a});
    forall j | 0 <= j < i
      ensures (s + [x])[j] !in {a}
    {
      assert (s + [x])[j] == s[j];
    }
    FirstInUnique(s + [x], {a}, i);
  }

  /** `RemoveFirst` keeps the relative order of every other value. */
  lemma {:induction false} RemoveFirstKeepsOrder<T>(s: seq<T>, x: T, a: T, b: T)
    requires a != x && b != x
    ensures Precedes(s, a, b) <==> Precedes(RemoveFirst(s, x), a, b)
  {
    if x in s {
      var p := FirstIn(s, {x});
      var r := s[..p] + s[p + 1..];
      RemoveFirstAtScan(s, {x});
      assert RemoveFirst(s, x) == r;
      DeleteKeepsOthers(s, p, a);
      DeleteKeepsOthers(s, p, b);
      if a in s && b in s {
        var ia, ib := FirstIn(s, {a}), FirstIn(s, {b});
        FirstInAfterDelete(s, p, a);
        FirstInAfterDelete(s, p, b);
        assert ia != p && ib != p;
        assert ia < ib <==> FirstIn(r, {a}) < FirstIn(r, {b});
      }
    }
  }

  /** Deleting one position keeps every other value's membership. */
  lemma DeleteKeepsOthers<T>(s: seq<T>, p: nat, a: T)
    requires p < |s| && a != s[p]
    ensures a in s[..p] + s[p + 1..] <==> a in s
  {
    assert s == s[..p] + [s[p]] + s[p + 1..];
  }

  /** A non-empty set of blocks has an element to pick. */
  lemma NonEmptyHasMember(s: set<int>)
    requires s != {}
    ensures exists x :: x in s
  {
    assert (forall x :: x !in s) ==> s == {};
  }

  /** Taking elements away keeps a sequence duplicate-free and disjoint from others. */
  lemma SubMultiset<T(!new)>(a: seq<T>, b: seq<T>, other: seq<T>)
    requires multiset(a) <= multiset(b)
    ensures NoDup(b) ==> NoDup(a)
    ensures Disjoint(b, other) ==> Disjoint(a, other) && Disjoint(other, a)
  {
    if NoDup(b) {
      forall x
        ensures multiset(a)[x] <= 1
      {
        assert multiset(a)[x] <= multiset(b)[x];
      }
    }
  }
}

=== FILE: lfu_decay.dfy ===
/** `LFUWithDecayPolicy` (policies.py): per-block frequencies that are all
    multiplied by `decayFactor` every `decayInterval` updates. Frequencies are
    exact reals here; the source's floats are approximations of them. */
module LfuDecay {
  import opened Outcomes
  import opened Containers

  datatype LfuState = LfuState(freqs: map<int, real>, counter: nat, decayInterval: int, decayFactor: real)

  /** A block's frequency; a block without an entry counts as 0 (`freqs.get(k, 0)`). */
  function Freq(freqs: map<int, real>, k: int): real {
    Get(freqs, k, 0.0)
  }

  /** Every tracked frequency multiplied by `factor`. */
  function Decayed(freqs: map<int, real>, factor: real): (r: map<int, real>)
    ensures r.Keys == freqs.Keys
    ensures factor >= 0.0 && (forall k :: k in freqs ==> freqs[k] >= 0.0) ==>
              forall k :: k in r ==> r[k] >= 0.0
  {
    map k | k in freqs :: freqs[k] * factor
  }

  /** The state after a call, and whether the call raised. */
  datatype Step = Step(next: LfuState, outcome: Outcome)

  /** `update`: the block's frequency and the counter each grow by one; when
      the counter is a multiple of the interval, every frequency decays. An
      interval of 0 raises ZeroDivisionError after both increments. */
  function UpdateStep(s: LfuState, blk: int): (r: Step)
    ensures r.next.counter == s.counter + 1
    ensures r.outcome.Fail? <==> s.decayInterval == 0
    ensures r.outcome.Fail? ==> r.outcome.failure == ZeroDivisionError
    ensures r.next.decayInterval == s.decayInterval && r.next.decayFactor == s.decayFactor
  {
    var freqs := s.freqs[blk := Freq(s.freqs, blk) + 1.0];
    var counter := s.counter + 1;
    if s.decayInterval == 0 then
      Step(s.(freqs := freqs, counter := counter), Fail(ZeroDivisionError))
    else if counter % s.decayInterval == 0 then
      Step(s.(freqs := Decayed(freqs, s.decayFactor), counter := counter), Pass)
    else
      Step(s.(freqs := freqs, counter := counter), Pass)
  }

  /** `v` is a block of `cache` of least frequency. */
  ghost predicate IsVictim(freqs: map<int, real>, cache: set<int>, v: int) {
    v in cache && forall k :: k in cache ==> Freq(freqs, v) <= Freq(freqs, k)
  }

  /** Whether the update that brings the counter to `counter` decays. */
  predicate DecaysAt(counter: int, interval: int) {
    interval != 0 && counter % interval == 0
  }

  /** The effect of `update` on every block, tracked or not: `blk` gains one,
      and everything is scaled by the factor exactly when the new counter is a
      multiple of the interval. Only `blk` can become tracked. */
  lemma UpdateEffect(s: LfuState, blk: int, k: int)
    ensures var t := UpdateStep(s, blk);
            var scale := if DecaysAt(s.counter + 1, s.decayInterval) then s.decayFactor else 1.0;
            && t.next.counter == s.counter + 1
            && (t.outcome.Fail? <==> s.decayInterval == 0)
            && Freq(t.next.freqs, k) == (Freq(s.freqs, k) + (if k == blk then 1.0 else 0.0)) * scale
            && t.next.freqs.Keys == s.freqs.Keys + {blk}
            && t.next.decayInterval == s.decayInterval && t.next.decayFactor == s.decayFactor
  {
    var t := UpdateStep(s, blk);
    if k != blk && k !in s.freqs {
      assert k !in t.next.freqs;
    }
  }

  /** With a non-negative factor, frequencies stay non-negative. */
  lemma UpdateKeepsNonNegative(s: LfuState, blk: int)
    requires s.decayFactor >= 0.0
    requires forall k :: k in s.freqs ==> s.freqs[k] >= 0.0
    ensures var n := UpdateStep(s, blk).next;
            forall k :: k in n.freqs ==> n.freqs[k] >= 0.0
  {
    var n := UpdateStep(s, blk).next;
    forall k | k in n.freqs
      ensures n.freqs[k] >= 0.0
    {
      UpdateEffect(s, blk, k);
      var base := Freq(s.freqs, k) + (if k == blk then 1.0 else 0.0);
      assert base >= 0.0;
    }
  }

  /** Decay by a positive factor preserves the order of frequencies, so the
      blocks `evict` may choose are the same before and after a decay. */
  lemma {:induction false} DecayKeepsVictims(freqs: map<int, real>, factor: real, cache: set<int>, v: int)
    requires factor > 0.0
    ensures IsVictim(freqs, cache, v) <==> IsVictim(Decayed(freqs, factor), cache, v)
  {
    var d := Decayed(freqs, factor);
    forall k
      ensures Freq(d, k) == Freq(freqs, k) * factor
    {
    }
    forall k | k in cache
      ensures Freq(freqs, v) <= Freq(freqs, k) <==> Freq(d, v) <= Freq(d, k)
    {
      assert Freq(d, v) == Freq(freqs, v) * factor && Freq(d, k) == Freq(freqs, k) * factor;
      ScalePreservesOrder(Freq(freqs, v), Freq(freqs, k), factor);
    }
  }

  lemma ScalePreservesOrder(a: real, b: real, f: real)
    requires f > 0.0
    ensures a <= b <==> a * f <= b * f
  {
    if a <= b {
      assert (b - a) * f >= 0.0;
    } else {
      assert (a - b) * f > 0.0;
    }
  }

  /** With interval 2 and factor 0.5, a block updated once and then followed
      by one unrelated update has frequency 0.5, and one more unrelated update
      leaves it there. */
  lemma DecayScenario(a: int, b: int, c: int)
    requires a != b && a != c
    ensures var s0 := LfuState(map[], 0, 2, 0.5);
            var s1 := UpdateStep(s0, a).next;
            var s2 := UpdateStep(s1, b).next;
            var s3 := UpdateStep(s2, c).next;
            Freq(s1.freqs, a) == 1.0 && Freq(s2.freqs, a) == 0.5 && Freq(s3.freqs, a) == 0.5
  {
    var s0 := LfuState(map[], 0, 2, 0.5);
    UpdateEffect(s0, a, a);
    var s1 := UpdateStep(s0, a).next;
    UpdateEffect(s1, b, a);
    var s2 := UpdateStep(s1, b).next;
    UpdateEffect(s2, c, a);
  }

  /** The `min(cache, key=...)` scan: keeps the first block of least frequency. */
  method LeastFrequent(freqs: map<int, real>, cache: set<int>) returns (victim: int)
    requires cache != {}
    ensures IsVictim(freqs, cache, victim)
  {
    NonEmptyHasMember(cache);
    victim :| victim in cache;
    var rest := cache - {victim};
    while rest != {}
      invariant victim in cache && rest <= cache
      invariant forall k :: k in cache && k !in rest ==> Freq(freqs, victim) <= Freq(freqs, k)
      decreases rest
    {
      NonEmptyHasMember(rest);
      var k :| k in rest;
      if Freq(freqs, k) < Freq(freqs, victim) {
        victim := k;
      }
      rest := rest - {k};
    }
  }

  /** The decay sweep `for k in list(freqs): freqs[k] *= factor`, one key at a time. */
  method DecayAll(freqs: map<int, real>, factor: real) returns (decayed: map<int, real>)
    ensures decayed.Keys == freqs.Keys
    ensures forall k :: k in freqs ==> decayed[k] == freqs[k] * factor
    ensures decayed == Decayed(freqs, factor)
  {
    decayed := freqs;
    var pending := freqs.Keys;
    while pending != {}
      invariant pending <= freqs.Keys && decayed.Keys == freqs.Keys
      invariant forall k :: k in freqs && k !in pending ==> decayed[k] == freqs[k] * factor
      invariant forall k :: k in pending ==> decayed[k] == freqs[k]
      decreases pending
    {
      NonEmptyHasMember(pending);
      var k :| k in pending;
      decayed := decayed[k := decayed[k] * factor];
      pending := pending - {k};
    }
    forall k | k in freqs
      ensures decayed[k] == Decayed(freqs, factor)[k]
    {
    }
    assert decayed.Keys == Decayed(freqs, factor).Keys;
  }

  class LfuDecayPolicy {
    var freqs: map<int, real>
    var counter: nat
    var decayInterval: int
    var decayFactor: real

    function State(): LfuState
      reads this
    {
      LfuState(freqs, counter, decayInterval, decayFactor)
    }

    constructor (decayInterval: int := 10000, decayFactor: real := 0.5)
      ensures State() == LfuState(map[], 0, decayInterval, decayFactor)
    {
      freqs := map[];
      counter := 0;
      this.decayInterval := decayInterval;
      this.decayFactor := decayFactor;
    }

    /** `hit` is accepted and ignored, as in the source. The decay is the
        source's loop over the tracked keys. */
    method Update(blk: int, hit: bool := false) returns (r: Outcome)
      modifies this
      ensures State() == UpdateStep(old(State()), blk).next
      ensures r == UpdateStep(old(State()), blk).outcome
    {
      freqs := freqs[blk := Freq(freqs, blk) + 1.0];
      counter := counter + 1;
      if decayInterval == 0 {
        return Fail(ZeroDivisionError);
      }
      if counter % decayInterval == 0 {
        freqs := DecayAll(freqs, decayFactor);
      }
      r := Pass;
    }

    /** `evict`: a least-frequent block of `cache`; its entry is dropped, so
        a later re-admission starts from 0. `min` of an empty set raises
        ValueError. */
    method Evict(cache: set<int>) returns (r: Result<int>)
      modifies this
      ensures cache == {} ==> r == Err(ValueError) && State() == old(State())
      ensures cache != {} ==> r.Ok? && IsVictim(old(freqs), cache, r.value)
      ensures r.Ok? ==> freqs == old(freqs) - {r.value}
      ensures counter == old(counter) && decayInterval == old(decayInterval) && decayFactor == old(decayFactor)
    {
      if cache == {} {
        return Err(ValueError);
      }
      var victim := LeastFrequent(freqs, cache);
      freqs := freqs - {victim};
      r := Ok(victim);
    }
  }
}

=== FILE: lru.dfy ===
/** `LRUPolicy` (policies.py): one recency-ordered OrderedDict, least recent first. */
module Lru {
  import opened Outcomes
  import opened Containers

  /** `update`: `blk` is taken out if present and re-inserted at the most-recent end. */
  function Touch(order: seq<int>, blk: int): (r: seq<int>)
    ensures |r| > 0 && r[|r| - 1] == blk
    ensures multiset(r) == multiset(order) - multiset{blk} + multiset{blk}
  {
    RemoveFirst(order, blk) + [blk]
  }

  /** What `evict` returns and the order it leaves. */
  datatype Eviction = Eviction(victim: int, order: seq<int>)

  /** `evict`: the least-recent key that is in `cache` is popped and returned;
      when no key is, the oldest key is popped and returned although it is not
      in `cache`; `popitem` on an empty order raises KeyError. */
  function EvictStep(order: seq<int>, cache: set<int>): (r: Result<Eviction>)
    ensures r.Err? <==> order == []
    ensures r.Ok? ==> r.value.victim in order
    ensures r.Ok? ==> multiset(r.value.order) == multiset(order) - multiset{r.value.victim}
  {
    var i := FirstIn(order, cache);
    if i < |order| then
      var key := order[i];
      Ok(Eviction(key, RemoveFirst(order, key)))
    else if order == [] then
      Err(KeyError)
    else
      assert order == [order[0]] + order[1..];
      Ok(Eviction(order[0], order[1..]))
  }

  /** `update` puts `blk` at the most-recent end, adds no other key and keeps keys unique. */
  lemma TouchKeys(order: seq<int>, blk: int)
    requires NoDup(order)
    ensures var t := Touch(order, blk);
            && NoDup(t)
            && t[|t| - 1] == blk
            && (forall k :: k in t <==> k in order || k == blk)
            && |t| == if blk in order then |order| else |order| + 1
  {
    var r := RemoveFirst(order, blk);
    var t := r + [blk];
    forall k
      ensures multiset(t)[k] <= 1
      ensures k in t <==> k in order || k == blk
    {
      RemoveFirstMembers(order, blk, k);
      assert multiset(t)[k] == multiset(r)[k] + (if k == blk then 1 else 0);
    }
  }

  /** `update` leaves every other pair of keys in the same relative order. */
  lemma {:induction false} TouchKeepsOrder(order: seq<int>, blk: int, a: int, b: int)
    requires a != blk && b != blk
    ensures Precedes(order, a, b) <==> Precedes(Touch(order, blk), a, b)
  {
    var r := RemoveFirst(order, blk);
    RemoveFirstKeepsOrder(order, blk, a, b);
    if a in r && b in r {
      FirstInAfterAppend(r, blk, a);
      FirstInAfterAppend(r, blk, b);
    }
  }

  /** `evict` fails exactly on an empty order. When some key is in `cache`,
      the victim is the least-recent such key and only it is removed; otherwise
      the victim is the oldest key, which is not in `cache`. */
  lemma {:induction false} EvictStepSpec(order: seq<int>, cache: set<int>)
    ensures EvictStep(order, cache).Err? <==> order == []
    ensures EvictStep(order, cache).Err? ==> EvictStep(order, cache).failure == KeyError
    ensures (exists k :: k in order && k in cache) ==>
              var i := FirstIn(order, cache);
              && EvictStep(order, cache) == Ok(Eviction(order[i], order[..i] + order[i + 1..]))
              && order[i] in cache
              && (forall j :: 0 <= j < i ==> order[j] !in cache)
    ensures order != [] && (forall k :: k in order ==> k !in cache) ==>
              EvictStep(order, cache) == Ok(Eviction(order[0], order[1..])) && order[0] !in cache
  {
    if i :| 0 <= i < |order| && order[i] in cache {
      assert FirstIn(order, cache) < |order|;
      RemoveFirstAtScan(order, cache);
    }
  }

  /** `evict` keeps keys unique, removes exactly the victim, and adds nothing. */
  lemma EvictKeepsKeys(order: seq<int>, cache: set<int>)
    requires NoDup(order) && EvictStep(order, cache).Ok?
    ensures var e := EvictStep(order, cache).value;
            && NoDup(e.order)
            && e.victim in order
            && (forall k :: k in e.order <==> k in order && k != e.victim)
  {
    var i := FirstIn(order, cache);
    var e := EvictStep(order, cache).value;
    if i == |order| {
      assert order == [order[0]] + order[1..];
      assert e.order == RemoveFirst(order, order[0]);
    }
    forall k
      ensures k in e.order <==> k in order && k != e.victim
    {
      RemoveFirstMembers(order, e.victim, k);
    }
    RemoveFirstMembers(order, e.victim, e.victim);
  }

  /** Capacity 2 and accesses a, b, c, a of distinct blocks: when c arrives
      the least-recent block, a, is the victim, and when a returns it is b;
      the order ends as [c, a], with c the less recent. The policy is driven
      directly, with no prefetch in between. */
  lemma RecencyScenario(a: int, b: int, c: int)
    requires a != b && b != c && a != c
    ensures Touch(Touch([], a), b) == [a, b]
    ensures EvictStep([a, b], {a, b}) == Ok(Eviction(a, [b]))
    ensures Touch([b], c) == [b, c]
    ensures EvictStep([b, c], {b, c}) == Ok(Eviction(b, [c]))
    ensures Touch([c], a) == [c, a]
  {
    TouchAbsent([], a);
    assert Touch([], a) == [a];
    TouchAbsent([a], b);
    assert Touch([a], b) == [a, b];
    ThirdArrives(a, b, c);
    FirstReturns(a, b, c);
  }

  /** The third access of the scenario: c evicts a. */
  lemma ThirdArrives(a: int, b: int, c: int)
    requires a != b && b != c && a != c
    ensures EvictStep([a, b], {a, b}) == Ok(Eviction(a, [b]))
    ensures Touch([b], c) == [b, c]
  {
    EvictHead([a, b], {a, b});
    TouchAbsent([b], c);
  }

  /** The last access of the scenario: a evicts b. */
  lemma FirstReturns(a: int, b: int, c: int)
    requires a != b && b != c && a != c
    ensures EvictStep([b, c], {b, c}) == Ok(Eviction(b, [c]))
    ensures Touch([c], a) == [c, a]
  {
    EvictHead([b, c], {b, c});
    TouchAbsent([c], a);
  }

  /** `update` of a block the order does not hold appends it. */
  lemma TouchAbsent(order: seq<int>, blk: int)
    requires blk !in order
    ensures Touch(order, blk) == order + [blk]
  {
  }

  /** When the oldest key is in `cache`, `evict` pops and returns it. */
  lemma EvictHead(order: seq<int>, cache: set<int>)
    requires order != [] && order[0] in cache
    ensures EvictStep(order, cache) == Ok(Eviction(order[0], order[1..]))
  {
    assert FirstIn(order, cache) == 0;
    RemoveFirstAtScan(order, cache);
    assert order[..0] + order[1..] == order[1..];
  }

  /** The policy object: `order` mirrors the OrderedDict's keys. */
  class LruPolicy {
    var order: seq<int>

    ghost predicate Valid()
      reads this
    {
      NoDup(order)
    }

    constructor ()
      ensures Valid() && order == []
    {
      order := [];
    }

    /** `hit` is accepted and ignored, as in the source. */
    method Update(blk: int, hit: bool := false)
      requires Valid()
      modifies this
      ensures Valid()
      ensures order == Touch(old(order), blk)
    {
      TouchKeys(order, blk);
      if blk in order {
        order := RemoveFirst(order, blk);
      }
      order := order + [blk];
    }

    method Evict(cache: set<int>) returns (r: Result<int>)
      requires Valid()
      modifies this
      ensures Valid()
      ensures match EvictStep(old(order), cache)
              case Ok(e) => r == Ok(e.victim) && order == e.order
              case Err(f) => r == Err(f) && order == old(order)
    {
      var i := ScanFirstIn(order, cache);
      if i < |order| {
        EvictKeepsKeys(order, cache);
        var key := order[i];
        order := RemoveFirst(order, key);
        return Ok(key);
      }
      if order == [] {
        return Err(KeyError);
      }
      EvictKeepsKeys(order, cache);
      var key := order[0];
      order := order[1..];
      r := Ok(key);
    }
  }
}

=== FILE: outcomes.dfy ===
/** Outcomes of the modelled operations, and the small arithmetic helpers
    they share. The Python code signals failure by raising; each exception
    that a reachable path can raise is one `Failure`. */
module Outcomes {

  /** The Python exceptions the policies and the simulator can raise. */
  datatype Failure =
    | KeyError           // popitem() on an empty OrderedDict, set.remove of a non-member
    | IndexError         // popleft() on an empty deque
    | ValueError         // min() of an empty set
    | ZeroDivisionError  // `%` by zero
    | StopIteration      // next(iter(...)) of an empty set

  /** The result of an operation that returns nothing. */
  datatype Outcome = Pass | Fail(failure: Failure)

  /** The result of an operation that returns a value. */
  datatype Result<+T> = Ok(value: T) | Err(failure: Failure)

  datatype Option<+T> = None | Some(value: T)

  /** Python's `max` and `min` on two numbers. */
  function Max(a: int, b: int): int { if a < b then b else a }

  function MinReal(a: real, b: real): real { if a < b then a else b }

  function MaxReal(a: real, b: real): real { if a < b then b else a }
}

=== FILE: simulator.dfy ===
/** `CacheSimulator` (simulator.py): a set of cached blocks bounded by
    `cacheSize`, in front of one of the replacement policies, counting hits
    and misses and prefetching the next line after every access. */
module Simulator {
  import opened Outcomes
  import Lru
  import LfuDecay
  import TinyLfuPolicy

  /** The policy object a simulator drives. */
  datatype Policy =
    | UsesLru(lru: Lru.LruPolicy)
    | UsesLfuDecay(lfu: LfuDecay.LfuDecayPolicy)
    | UsesTinyLfu(tiny: TinyLfuPolicy.TinyLfuSlru)
  {
    function Object(): object {
      match this
      case UsesLru(p) => p
      case UsesLfuDecay(p) => p
      case UsesTinyLfu(p) => p
    }

    ghost predicate Valid()
      reads Object()
    {
      match this
      case UsesLru(p) => p.Valid()
      case UsesLfuDecay(_) => true
      case UsesTinyLfu(p) => p.Valid()
    }
  }

  /** A call the simulator makes on its policy, with what it returned. */
  datatype PolicyCall =
    | Updated(blk: int, hit: bool, outcome: Outcome)
    | Evicted(cache: set<int>, victim: Result<int>)

  /** Python's `a % n`: the remainder takes the sign of the divisor. */
  function PyMod(a: int, n: int): (r: int)
    requires n != 0
    ensures n > 0 ==> 0 <= r < n
    ensures n < 0 ==> n < r <= 0
    ensures Divides(n, a - r)
  {
    var e := a % n;
    if n < 0 && e != 0 then
      assert a - (e + n) == (a / n - 1) * n;
      e + n
    else
      assert a - e == (a / n) * n;
      e
  }

  ghost predicate Divides(n: int, x: int) {
    exists q :: x == q * n
  }

  /** The prefetch target `(blk % n_blocks) + 1`; ZeroDivisionError when
      `n_blocks` is 0. */
  function PrefetchTarget(blk: int, nBlocks: int): (r: Result<int>)
    ensures r.Err? <==> nBlocks == 0
    ensures r.Err? ==> r.failure == ZeroDivisionError
    ensures nBlocks > 0 ==> 1 <= r.value <= nBlocks
    ensures nBlocks > 0 && 1 <= blk < nBlocks ==> r.value == blk + 1
    ensures nBlocks > 0 && blk == nBlocks ==> r.value == 1
    ensures nBlocks < 0 ==> nBlocks + 1 < r.value <= 1
  {
    if nBlocks == 0 then Err(ZeroDivisionError) else Ok(PyMod(blk, nBlocks) + 1)
  }

  /** `cache.remove(victim)` with what `evict` returned: the evict's own
      failure propagates, and a victim outside the cache raises KeyError. */
  function RemoveVictim(cache: set<int>, victim: Result<int>): (r: Result<set<int>>)
    ensures r.Ok? <==> victim.Ok? && victim.value in cache
    ensures r.Ok? ==> r.value == cache - {victim.value} && |r.value| == |cache| - 1
    ensures victim.Err? ==> r == Err(victim.failure)
    ensures victim.Ok? && victim.value !in cache ==> r == Err(KeyError)
  {
    match victim
    case Err(f) => Err(f)
    case Ok(v) => if v in cache then Ok(cache - {v}) else Err(KeyError)
  }

  /** The bound the simulator keeps: at most `cacheSize` blocks, or none. */
  ghost predicate Bounded(cache: set<int>, cacheSize: int) {
    cache == {} || |cache| <= cacheSize
  }

  /** The effect of bringing absent block `b` in, from cache `c0` and call
      trace `t0` to `c1` and `t1`, ending with `r`: when the cache is full the
      policy is asked for a victim first and the victim is removed (which can
      raise), then `b` is added and the policy told of it with `hit=False`. */
  ghost predicate Installed(c0: set<int>, size: int, b: int, t0: seq<PolicyCall>,
                            c1: set<int>, t1: seq<PolicyCall>, r: Outcome) {
    if |c0| < size then
      c1 == c0 + {b} && t1 == t0 + [Updated(b, false, r)]
    else
      && |t1| > |t0| && t1[|t0|].Evicted? && t1[|t0|].cache == c0
      && match RemoveVictim(c0, t1[|t0|].victim)
         case Err(f) => r == Fail(f) && c1 == c0 && t1 == t0 + [t1[|t0|]]
         case Ok(room) => c1 == room + {b} && t1 == t0 + [t1[|t0|], Updated(b, false, r)]
  }

  /** Installing `b` adds at least one call to the trace, adds no block but
      `b`, and `b` is cached whenever the installation succeeds. */
  lemma InstalledGrows(c0: set<int>, size: int, b: int, t0: seq<PolicyCall>,
                       c1: set<int>, t1: seq<PolicyCall>, r: Outcome)
    requires Installed(c0, size, b, t0, c1, t1, r)
    ensures t0 < t1
    ensures c1 <= c0 + {b}
    ensures r.Pass? ==> b in c1
  {
  }

  lemma AccessedGrows(c0: set<int>, size: int, blk: int, t0: seq<PolicyCall>,
                      c1: set<int>, t1: seq<PolicyCall>, r: Outcome)
    requires Accessed(c0, size, blk, t0, c1, t1, r)
    ensures t0 < t1
    ensures c1 <= c0 + {blk}
    ensures r.Pass? ==> blk in c1
  {
    if blk !in c0 {
      InstalledGrows(c0, size, blk, t0, c1, t1, r);
    }
  }

  lemma PrefetchedGrows(c0: set<int>, size: int, pre: int, t0: seq<PolicyCall>,
                        c1: set<int>, t1: seq<PolicyCall>, r: Outcome)
    requires Prefetched(c0, size, pre, t0, c1, t1, r)
    ensures t0 <= t1
    ensures c1 <= c0 + {pre}
    ensures r.Pass? ==> pre in c1
  {
    if pre !in c0 {
      InstalledGrows(c0, size, pre, t0, c1, t1, r);
    }
  }

  /** Step 1 of `access_block` from cache `c0` and trace `t0`: a hit only
      tells the policy (`hit=True`); a miss brings `blk` in. */
  ghost predicate Accessed(c0: set<int>, size: int, blk: int, t0: seq<PolicyCall>,
                           c1: set<int>, t1: seq<PolicyCall>, r: Outcome) {
    if blk in c0 then c1 == c0 && t1 == t0 + [Updated(blk, true, r)]
    else Installed(c0, size, blk, t0, c1, t1, r)
  }

  /** Step 2 of `access_block`: a cached `pre` is left alone and no call is
      made; an absent one is brought in. */
  ghost predicate Prefetched(c0: set<int>, size: int, pre: int, t0: seq<PolicyCall>,
                             c1: set<int>, t1: seq<PolicyCall>, r: Outcome) {
    if pre in c0 then c1 == c0 && t1 == t0 && r == Pass
    else Installed(c0, size, pre, t0, c1, t1, r)
  }

  /** With room for one block, prefetching an absent block evicts the block
      just accessed whenever the policy names a cached victim: the primary
      block does not survive its own prefetch. */
  lemma PrefetchEvictsPrimary(blk: int, pre: int, t0: seq<PolicyCall>,
                              c1: set<int>, t1: seq<PolicyCall>, r: Outcome)
    requires pre != blk
    requires Prefetched({blk}, 1, pre, t0, c1, t1, r)
    requires |t1| > |t0| && t1[|t0|].Evicted? && t1[|t0|].victim.Ok? && t1[|t0|].victim.value in {blk}
    ensures c1 == {pre} && blk !in c1
    ensures t1 == t0 + [Evicted({blk}, Ok(blk)), Updated(pre, false, r)]
  {
  }

  /** `get_hit_rate`: hits over accesses, 0 before any access. */
  function HitRate(hits: nat, misses: nat): (r: real)
    ensures hits + misses == 0 ==> r == 0.0
    ensures hits + misses > 0 ==> 0.0 <= r <= 1.0 && r * (hits + misses) as real == hits as real
  {
    var total := hits + misses;
    if total != 0 then hits as real / total as real else 0.0
  }

  class CacheSimulator {
    const cacheSize: int
    const policy: Policy
    const nBlocks: int
    var cache: set<int>
    var hits: nat
    var misses: nat
    /** Every call made on the policy, oldest first. */
    ghost var calls: seq<PolicyCall>

    ghost predicate Valid()
      reads this, policy.Object()
    {
      policy.Valid() && Bounded(cache, cacheSize)
    }

    constructor (cacheSize: int, policy: Policy, nBlocks: int := 100)
      requires policy.Valid()
      ensures Valid()
      ensures this.cacheSize == cacheSize && this.policy == policy && this.nBlocks == nBlocks
      ensures cache == {} && hits == 0 && misses == 0 && calls == []
    {
      this.cacheSize := cacheSize;
      this.policy := policy;
      this.nBlocks := nBlocks;
      cache := {};
      hits := 0;
      misses := 0;
      calls := [];
    }

    /** `policy.update(blk, hit)`. */
    method UpdatePolicy(blk: int, hit: bool) returns (r: Outcome)
      requires policy.Valid()
      modifies this, policy.Object()
      ensures policy.Valid()
      ensures calls == old(calls) + [Updated(blk, hit, r)]
      ensures cache == old(cache) && hits == old(hits) && misses == old(misses)
    {
      match policy {
        case UsesLru(p) =>
          p.Update(blk, hit);
          r := Pass;
        case UsesLfuDecay(p) =>
          r := p.Update(blk, hit);
        case UsesTinyLfu(p) =>
          r := p.Update(blk, hit);
      }
      calls := calls + [Updated(blk, hit, r)];
    }

    /** `policy.evict(cache)`. Every policy but LRU returns a member of a
        non-empty cache, and fails on an empty one. */
    method EvictFromPolicy(candidates: set<int>) returns (r: Result<int>)
      requires policy.Valid()
      modifies this, policy.Object()
      ensures policy.Valid()
      ensures calls == old(calls) + [Evicted(candidates, r)]
      ensures cache == old(cache) && hits == old(hits) && misses == old(misses)
      ensures !policy.UsesLru? ==> (r.Ok? <==> candidates != {}) && (r.Ok? ==> r.value in candidates)
    {
      match policy {
        case UsesLru(p) =>
          r := p.Evict(candidates);
        case UsesLfuDecay(p) =>
          r := p.Evict(candidates);
        case UsesTinyLfu(p) =>
          r := p.Evict(candidates);
      }
      calls := calls + [Evicted(candidates, r)];
    }

    /** Bringing an absent block in: evict first when the cache is full. */
    method Install(b: int) returns (r: Outcome)
      requires Valid() && b !in cache
      modifies this, policy.Object()
      ensures Valid()
      ensures Installed(old(cache), cacheSize, b, old(calls), cache, calls, r)
      ensures hits == old(hits) && misses == old(misses)
    {
      if |cache| >= cacheSize {
        var victim := EvictFromPolicy(cache);
        var room := RemoveVictim(cache, victim);
        if room.Err? {
          return Fail(room.failure);
        }
        cache := room.value;
      }
      cache := cache + {b};
      r := UpdatePolicy(b, false);
    }

    /** Step 1 of `access_block`: count a hit or a miss and tell the policy;
        a missed block is brought in. */
    method Access(blk: int) returns (r: Outcome)
      requires Valid()
      modifies this, policy.Object()
      ensures Valid()
      ensures blk in old(cache) ==> hits == old(hits) + 1 && misses == old(misses)
      ensures blk !in old(cache) ==> hits == old(hits) && misses == old(misses) + 1
      ensures Accessed(old(cache), cacheSize, blk, old(calls), cache, calls, r)
    {
      if blk in cache {
        hits := hits + 1;
        r := UpdatePolicy(blk, true);
      } else {
        misses := misses + 1;
        r := Install(blk);
      }
    }

    /** Step 2 of `access_block`: bring block `pre` in without counting it. */
    method Prefetch(pre: int) returns (r: Outcome)
      requires Valid()
      modifies this, policy.Object()
      ensures Valid()
      ensures hits == old(hits) && misses == old(misses)
      ensures Prefetched(old(cache), cacheSize, pre, old(calls), cache, calls, r)
    {
      r := Pass;
      if pre !in cache {
        r := Install(pre);
      }
    }

    /** `access_block(block_id)`: the access, then the prefetch of the next
        line. A failure of the first step ends the call, and so does a zero
        `n_blocks`, once the access is done. The first postcondition is the
        whole effect, in terms of the policy's answers recorded in `calls`;
        the rest are its consequences. */
    method AccessBlock(blk: int) returns (r: Outcome)
      requires Valid()
      modifies this, policy.Object()
      ensures Valid()
      ensures exists c1, t1, r1 ::
                && Accessed(old(cache), cacheSize, blk, old(calls), c1, t1, r1)
                && (r1.Fail? ==> cache == c1 && calls == t1 && r == r1)
                && (r1.Pass? && nBlocks == 0 ==> cache == c1 && calls == t1 && r == Fail(ZeroDivisionError))
                && (r1.Pass? && nBlocks != 0 ==>
                      Prefetched(c1, cacheSize, PrefetchTarget(blk, nBlocks).value, t1, cache, calls, r))
      ensures hits + misses == old(hits) + old(misses) + 1
      ensures hits == old(hits) + (if blk in old(cache) then 1 else 0)
      ensures old(calls) < calls
      ensures forall x :: x in cache ==> x in old(cache) || x == blk || PrefetchTarget(blk, nBlocks) == Ok(x)
      ensures r.Pass? ==> PrefetchTarget(blk, nBlocks).Ok? && PrefetchTarget(blk, nBlocks).value in cache
      ensures nBlocks == 0 ==> r.Fail?
    {
      ghost var c0, t0 := cache, calls;
      r := Access(blk);
      ghost var c1, t1, r1 := cache, calls, r;
      AccessedGrows(c0, cacheSize, blk, t0, c1, t1, r);
      if r.Fail? {
        return;
      }
      if nBlocks == 0 {
        return Fail(ZeroDivisionError);
      }
      var pre := PyMod(blk, nBlocks) + 1;
      r := Prefetch(pre);
      PrefetchedGrows(c1, cacheSize, pre, t1, cache, calls, r);
    }

    /** `get_hit_rate`. */
    function GetHitRate(): (r: real)
      reads this
      ensures hits + misses == 0 ==> r == 0.0
      ensures hits + misses > 0 ==> 0.0 <= r <= 1.0 && r * (hits + misses) as real == hits as real
    {
      HitRate(hits, misses)
    }
  }
}

=== FILE: tiny_lfu.dfy ===
/** `TinyLFUSLRUPolicy` (policies.py), as functions on its state: an exact
    sliding-window frequency filter in front of a segmented LRU (a FIFO
    probation segment and an LRU protected segment), a bounded ghost FIFO of
    blocks pushed out of probation, and an adaptive probation fraction. The
    fraction is an exact real; the source's float is an approximation of it. */
module TinyLfu {
  import opened Outcomes
  import opened Containers

  /** Bounds of the adaptive probation fraction. */
  const MaxFraction: real := 0.5
  const MinFraction: real := 0.05
  /** The periodic adjustment shrinks probation when the ghost-hit rate is below this. */
  const ShrinkBelowRate: real := 0.1
  /** The window frequency a cold block needs to be admitted to probation. */
  const AdmitFrequency: int := 2

  type Pos = n: int | n >= 1 witness 1

  datatype State = State(
    c: int,               // cache_size
    windowLen: nat,       // freq_window: maxlen of the window deque
    adjustInterval: int,
    adjustStep: real,
    probFraction: real,
    probSize: Pos,
    protSize: int,
    prob: seq<int>,       // probation FIFO, head first
    prot: seq<int>,       // protected LRU, least recent first
    ghostProb: seq<int>,  // ghost FIFO of blocks pushed out of probation; maxlen probSize
    freq: map<int, int>,  // window counts
    window: seq<int>,     // recent accesses, oldest first
    accesses: nat,
    ghostHits: nat)

  /** `max(1, int(c * fraction))`. For a negative product `int` truncates
      where `Floor` rounds down, but both are then at most 0 and the `max`
      yields 1 either way. */
  function ProbSizeFor(c: int, fraction: real): (p: Pos)
    ensures c as real * fraction < 1.0 ==> p == 1
    ensures c as real * fraction >= 1.0 ==> p as real <= c as real * fraction < p as real + 1.0
  {
    var n := (c as real * fraction).Floor;
    if n < 1 then 1 else n
  }

  /** `_repartition`: the segment targets recomputed from the fraction, and
      the ghost rebuilt with maxlen `probSize`, keeping its newest entries. */
  function Repartition(s: State): (r: State)
    ensures PartitionInv(r)
    ensures r.probFraction == s.probFraction && r.c == s.c
    ensures r.prob == s.prob && r.prot == s.prot && r.window == s.window && r.freq == s.freq
    ensures multiset(r.ghostProb) <= multiset(s.ghostProb)
  {
    var p := ProbSizeFor(s.c, s.probFraction);
    s.(probSize := p, protSize := s.c - p, ghostProb := KeepNewest(s.ghostProb, p))
  }

  /** `__init__`. `_repartition` runs before the ghost exists, which is then
      created empty with maxlen `probSize`. */
  function Init(c: int, initFraction: real, windowLen: nat, adjustInterval: int, adjustStep: real): (s: State)
    ensures Inv(s)
  {
    var p := ProbSizeFor(c, initFraction);
    State(c, windowLen, adjustInterval, adjustStep, initFraction, p, c - p,
          [], [], [], map[], [], 0, 0)
  }

  /** The state after a call, and whether the call raised. */
  datatype Step = Step(next: State, outcome: Outcome)

  /** `freq[b] += 1` on a `defaultdict(int)`. */
  function Increment(freq: map<int, int>, b: int): map<int, int> {
    freq[b := Get(freq, b, 0) + 1]
  }

  /** `freq[b] -= 1`, the entry being deleted when it reaches 0. */
  function Decrement(freq: map<int, int>, b: int): map<int, int> {
    var count := Get(freq, b, 0) - 1;
    if count == 0 then freq - {b} else freq[b := count]
  }

  /** Step 1 of `update`: `blk` enters the window and its count grows; when
      the window reaches its maxlen the oldest access leaves it and its count
      shrinks, the entry going when it reaches 0. With maxlen 0 the deque
      stays empty and `popleft` raises IndexError. */
  function RecordAccess(s: State, blk: int): (r: Step)
    ensures r.outcome.Fail? <==> s.windowLen == 0
    ensures r.outcome.Fail? ==> r.outcome.failure == IndexError
    ensures r.outcome.Pass? ==> |r.next.window| < s.windowLen
    ensures r.next == s.(window := r.next.window, freq := r.next.freq)
  {
    var window := KeepNewest(s.window + [blk], s.windowLen);
    var freq := Increment(s.freq, blk);
    if |window| == s.windowLen then
      if window == [] then
        Step(s.(window := window, freq := freq), Fail(IndexError))
      else
        Step(s.(window := window[1..], freq := Decrement(freq, window[0])), Pass)
    else
      Step(s.(window := window, freq := freq), Pass)
  }

  /** Insert `blk` (absent from the protected segment) at its most-recent end,
      first dropping the least-recent entry when the segment is at or above its
      target. `popitem` on an empty protected segment raises KeyError: this
      happens when the target is 0 or less, as it is for a cache of size 1. */
  function Promote(s: State, blk: int): (r: Step)
    ensures r.outcome.Fail? <==> s.prot == [] && s.protSize <= 0
    ensures r.outcome.Fail? ==> r.outcome.failure == KeyError && r.next == s
    ensures r.outcome.Pass? ==> |r.next.prot| > 0 && r.next.prot[|r.next.prot| - 1] == blk
    ensures r.outcome.Pass? ==> |r.next.prot| <= Max(|s.prot|, s.protSize)
    ensures r.next == s.(prot := r.next.prot)
  {
    if |s.prot| >= s.protSize then
      if s.prot == [] then Step(s, Fail(KeyError))
      else Step(s.(prot := s.prot[1..] + [blk]), Pass)
    else
      Step(s.(prot := s.prot + [blk]), Pass)
  }

  /** The bookkeeping of a ghost hit before the promotion: `blk` leaves the
      ghost, the ghost-hit count grows, the fraction grows by the step capped
      at one half, and the targets are recomputed. */
  function GhostFeedback(s: State, blk: int): (r: State)
    ensures r.ghostHits == s.ghostHits + 1 && r.accesses == s.accesses
    ensures PartitionInv(r) && r.probFraction <= MaxFraction
    ensures r.prob == s.prob && r.prot == s.prot && r.window == s.window && r.freq == s.freq
    ensures multiset(r.ghostProb) <= multiset(s.ghostProb) - multiset{blk}
  {
    Repartition(s.(ghostProb := RemoveFirst(s.ghostProb, blk),
                   ghostHits := s.ghostHits + 1,
                   probFraction := MinReal(MaxFraction, s.probFraction + s.adjustStep)))
  }

  /** The admission filter of the cold path: `blk` joins the probation tail
      when its window count is at least 2; a full probation first moves its
      head to the ghost, whose own oldest entry is dropped when it is full. */
  function Admit(s: State, blk: int): (r: State)
    ensures Get(s.freq, blk, 0) < AdmitFrequency ==> r == s
    ensures Get(s.freq, blk, 0) >= AdmitFrequency ==>
              && |r.prob| > 0 && r.prob[|r.prob| - 1] == blk
              && |r.prob| <= Max(|s.prob|, s.probSize)
    ensures r == s.(prob := r.prob, ghostProb := r.ghostProb)
  {
    if Get(s.freq, blk, 0) >= AdmitFrequency then
      var s1 := if |s.prob| >= s.probSize
                then s.(prob := s.prob[1..], ghostProb := BoundedAppend(s.ghostProb, s.probSize, s.prob[0]))
                else s;
      s1.(prob := s1.prob + [blk])
    else
      s
  }

  /** The periodic adjustment that ends the cold path: count the access and,
      every `adjustInterval` of them, shrink the fraction (floored at 0.05)
      when fewer than 10% of them were ghost hits; both counters restart. */
  function Adjust(s: State): (r: State)
    ensures CounterInv(r)
    ensures r.prob == s.prob && r.prot == s.prot && r.window == s.window && r.freq == s.freq
    ensures r.accesses == 0 || r.accesses == s.accesses + 1
  {
    var accesses := s.accesses + 1;
    if accesses >= s.adjustInterval then
      var rate := s.ghostHits as real / accesses as real;
      var s1 := if rate < ShrinkBelowRate
                then Repartition(s.(probFraction := MaxReal(MinFraction, s.probFraction - s.adjustStep)))
                else s;
      s1.(accesses := 0, ghostHits := 0)
    else
      s.(accesses := accesses)
  }

  /** `update(blk, hit)`; `hit` is not read by the source and is left out. */
  function UpdateStep(s: State, blk: int): (r: Step)
    ensures r.outcome.Fail? ==> r.outcome.failure in {IndexError, KeyError}
    ensures r.next.c == s.c && r.next.windowLen == s.windowLen
    ensures r.next.adjustInterval == s.adjustInterval && r.next.adjustStep == s.adjustStep
  {
    var rec := RecordAccess(s, blk);
    if rec.outcome.Fail? then rec else Serve(rec.next, blk)
  }

  /** The rest of `update` once the window has recorded the access: a hit in
      protected moves to its most-recent end, a hit in probation moves to
      protected, a ghost hit grows the fraction and moves to protected, and a
      block found nowhere goes through the admission filter and the periodic
      adjustment. */
  function Serve(s1: State, blk: int): (r: Step)
    ensures r.outcome.Fail? ==> r.outcome.failure == KeyError
    ensures r.next.c == s1.c && r.next.windowLen == s1.windowLen
    ensures r.next.adjustInterval == s1.adjustInterval && r.next.adjustStep == s1.adjustStep
    ensures r.next.window == s1.window && r.next.freq == s1.freq
  {
    if blk in s1.prot then
      Step(s1.(prot := RemoveFirst(s1.prot, blk) + [blk]), Pass)
    else if blk in s1.prob then
      Promote(s1.(prob := RemoveFirst(s1.prob, blk)), blk)
    else if blk in s1.ghostProb then
      Promote(GhostFeedback(s1, blk), blk)
    else
      Step(Adjust(Admit(s1, blk)), Pass)
  }

  /** What a successful `evict` returns and the state it leaves. */
  datatype Eviction = Eviction(victim: int, next: State)

  /** The two scans of `evict`: the first probation entry from the head that
      is in `cache`, else the least-recent protected entry that is; `None`
      when neither segment holds a member of `cache`, where the source falls
      back to an arbitrary member of `cache`. */
  function EvictScan(s: State, cache: set<int>): (r: Option<Eviction>)
    ensures r.Some? ==> r.value.victim in cache && (r.value.victim in s.prob || r.value.victim in s.prot)
    ensures r.Some? ==> r.value.next.ghostProb == s.ghostProb && r.value.next.freq == s.freq
    ensures r.None? <==> (forall x :: x in s.prob || x in s.prot ==> x !in cache)
  {
    var i := FirstIn(s.prob, cache);
    if i < |s.prob| then
      Some(Eviction(s.prob[i], s.(prob := RemoveFirst(s.prob, s.prob[i]))))
    else
      var j := FirstIn(s.prot, cache);
      if j < |s.prot| then
        Some(Eviction(s.prot[j], s.(prot := RemoveFirst(s.prot, s.prot[j]))))
      else
        None
  }

  /** `freq` is exactly the number of occurrences of each block in `window`,
      with no zero entries. */
  ghost predicate CountsMatch(freq: map<int, int>, window: seq<int>) {
    && (forall b :: Get(freq, b, 0) == multiset(window)[b])
    && (forall b :: b in freq ==> freq[b] > 0)
  }

  /** The window holds fewer than `windowLen` accesses and `freq` counts them. */
  ghost predicate WindowInv(s: State) {
    if s.windowLen == 0 then s.window == []
    else |s.window| < s.windowLen && CountsMatch(s.freq, s.window)
  }

  /** Segments that are duplicate-free and pairwise disjoint. */
  ghost predicate Segments(prob: seq<int>, prot: seq<int>, ghostProb: seq<int>) {
    && NoDup(prob) && NoDup(prot) && NoDup(ghostProb)
    && Disjoint(prob, prot) && Disjoint(prob, ghostProb) && Disjoint(prot, ghostProb)
  }

  /** Probation, protected and ghost are duplicate-free and pairwise disjoint. */
  ghost predicate SegmentInv(s: State) {
    Segments(s.prob, s.prot, s.ghostProb)
  }

  /** The targets follow the fraction, sum to the capacity, and bound the ghost. */
  ghost predicate PartitionInv(s: State) {
    && s.probSize == ProbSizeFor(s.c, s.probFraction)
    && s.protSize == s.c - s.probSize
    && |s.ghostProb| <= s.probSize
  }

  /** The access counter is reset whenever it reaches the interval. */
  ghost predicate CounterInv(s: State) {
    s.accesses == 0 || s.accesses < s.adjustInterval
  }

  ghost predicate Inv(s: State) {
    WindowInv(s) && SegmentInv(s) && PartitionInv(s) && CounterInv(s)
  }

  /** The fraction lies in [0.05, 0.5]. */
  ghost predicate FractionInRange(s: State) {
    MinFraction <= s.probFraction <= MaxFraction
  }
}

=== FILE: tiny_lfu_policy.dfy ===
/** `TinyLFUSLRUPolicy` (policies.py) as the object the simulator drives: its
    fields are updated in place, step by step as the source does, and every
    method is proved to leave the state the functions of `TinyLfu` describe. */
module TinyLfuPolicy {
  import opened Outcomes
  import opened Containers
  import opened TinyLfu
  import TinyLfuProperties

  class TinyLfuSlru {
    var c: int
    var windowLen: nat
    var adjustInterval: int
    var adjustStep: real
    var probFraction: real
    var probSize: Pos
    var protSize: int
    var prob: seq<int>
    var prot: seq<int>
    var ghostProb: seq<int>
    var freq: map<int, int>
    var window: seq<int>
    var accesses: nat
    var ghostHits: nat

    function State(): TinyLfu.State
      reads this
    {
      TinyLfu.State(c, windowLen, adjustInterval, adjustStep, probFraction, probSize, protSize,
                    prob, prot, ghostProb, freq, window, accesses, ghostHits)
    }

    ghost predicate Valid()
      reads this
    {
      Inv(State())
    }

    constructor (cacheSize: int, initFraction: real := 0.2, freqWindow: nat := 10000,
                 adjustInterval: int := 50000, adjustStep: real := 0.05)
      ensures State() == Init(cacheSize, initFraction, freqWindow, adjustInterval, adjustStep)
      ensures Valid()
    {
      c := cacheSize;
      probFraction := initFraction;
      var p := ProbSizeFor(cacheSize, initFraction);
      probSize := p;
      protSize := cacheSize - p;
      prob := [];
      prot := [];
      ghostProb := [];
      freq := map[];
      window := [];
      accesses := 0;
      ghostHits := 0;
      this.adjustInterval := adjustInterval;
      this.adjustStep := adjustStep;
      windowLen := freqWindow;
    }

    /** `_repartition` on a constructed object. */
    method Repartition()
      modifies this
      ensures State() == TinyLfu.Repartition(old(State()))
    {
      ghost var s := State();
      probSize := ProbSizeFor(c, probFraction);
      protSize := c - probSize;
      ghostProb := KeepNewest(ghostProb, probSize);
      assert State() == s.(probSize := probSize, protSize := protSize, ghostProb := ghostProb);
    }

    /** The admission into protected shared by probation and ghost hits. */
    method PromoteToProtected(blk: int) returns (r: Outcome)
      modifies this
      ensures State() == Promote(old(State()), blk).next
      ensures r == Promote(old(State()), blk).outcome
    {
      if |prot| >= protSize {
        if prot == [] {
          return Fail(KeyError);
        }
        prot := prot[1..];
      }
      prot := prot + [blk];
      r := Pass;
    }

    /** Step 1 of `update`: the sliding window and its counts. */
    method RecordAccess(blk: int) returns (r: Outcome)
      modifies this
      ensures State() == TinyLfu.RecordAccess(old(State()), blk).next
      ensures r == TinyLfu.RecordAccess(old(State()), blk).outcome
    {
      ghost var s := State();
      window := KeepNewest(window + [blk], windowLen);
      freq := Increment(freq, blk);
      assert State() == s.(window := window, freq := freq);
      if |window| == windowLen {
        if window == [] {
          return Fail(IndexError);
        }
        DropOldest();
      }
      r := Pass;
    }

    /** `popleft` on the window, and the count of the access it drops. */
    method DropOldest()
      requires window != []
      modifies this
      ensures State() == old(State()).(window := old(window)[1..], freq := Decrement(old(freq), old(window)[0]))
    {
      var oldest := window[0];
      window := window[1..];
      freq := Decrement(freq, oldest);
    }

    /** The bookkeeping of a ghost hit, before the promotion. */
    method RecordGhostHit(blk: int)
      modifies this
      ensures State() == GhostFeedback(old(State()), blk)
    {
      CountGhostHit(blk);
      Repartition();
    }

    /** A ghost hit forgets `blk`, counts the hit and grows the fraction. */
    method CountGhostHit(blk: int)
      modifies this
      ensures State() == old(State()).(ghostProb := RemoveFirst(old(ghostProb), blk),
                                       ghostHits := old(ghostHits) + 1,
                                       probFraction := MinReal(MaxFraction, old(probFraction) + adjustStep))
    {
      var g := RemoveFirst(ghostProb, blk);
      var f := MinReal(MaxFraction, probFraction + adjustStep);
      ghostProb, ghostHits, probFraction := g, ghostHits + 1, f;
    }

    /** The admission filter of the cold path. */
    method Admit(blk: int)
      modifies this
      ensures State() == TinyLfu.Admit(old(State()), blk)
    {
      if Get(freq, blk, 0) >= AdmitFrequency {
        if |prob| >= probSize {
          var head := prob[0];
          prob := prob[1..];
          ghostProb := BoundedAppend(ghostProb, probSize, head);
        }
        prob := prob + [blk];
      }
    }

    /** The shrink of the periodic adjustment: the fraction falls by the
        step, floored at 0.05, and the targets are recomputed. */
    method Shrink()
      modifies this
      ensures State() == TinyLfu.Repartition(old(State()).(probFraction := MaxReal(MinFraction, old(probFraction) - adjustStep)))
    {
      probFraction := MaxReal(MinFraction, probFraction - adjustStep);
      Repartition();
    }

    /** The periodic adjustment that ends the cold path. */
    method Adjust()
      modifies this
      ensures State() == TinyLfu.Adjust(old(State()))
    {
      ghost var s := State();
      TinyLfuProperties.AdjustSpec(s);
      accesses := accesses + 1;
      if accesses >= adjustInterval {
        var rate := ghostHits as real / accesses as real;
        TinyLfuProperties.ShrinkRateTest(ghostHits, accesses);
        if rate < ShrinkBelowRate {
          Shrink();
        }
        accesses, ghostHits := 0, 0;
      }
    }

    /** `update(blk, hit)`; `hit` is accepted and ignored, as in the source. */
    method Update(blk: int, hit: bool := false) returns (r: Outcome)
      requires Valid()
      modifies this
      ensures State() == UpdateStep(old(State()), blk).next
      ensures r == UpdateStep(old(State()), blk).outcome
      ensures Valid()
    {
      ghost var s0 := State();
      TinyLfuProperties.UpdateKeepsInv(s0, blk);
      r := RecordAccess(blk);
      if r.Fail? {
        return;
      }
      r := Serve(blk);
    }

    /** The rest of `update`, once the window has recorded the access. */
    method Serve(blk: int) returns (r: Outcome)
      modifies this
      ensures State() == TinyLfu.Serve(old(State()), blk).next
      ensures r == TinyLfu.Serve(old(State()), blk).outcome
    {
      ghost var s1 := State();
      if blk in prot {
        prot := RemoveFirst(prot, blk) + [blk];
        assert State() == s1.(prot := prot);
        return Pass;
      }
      if blk in prob {
        prob := RemoveFirst(prob, blk);
        assert State() == s1.(prob := prob);
        r := PromoteToProtected(blk);
        return;
      }
      if blk in ghostProb {
        RecordGhostHit(blk);
        r := PromoteToProtected(blk);
        return;
      }
      Admit(blk);
      Adjust();
      r := Pass;
    }

    /** `evict(cache)`: the two scans, then any member of `cache`, leaving the
        state unchanged; `next(iter(cache))` on an empty cache raises
        StopIteration. Which member the fallback picks follows the set's
        iteration order and is left open. */
    method Evict(cache: set<int>) returns (r: Result<int>)
      requires Valid()
      modifies this
      ensures Valid()
      ensures match EvictScan(old(State()), cache)
                case Some(e) => r == Ok(e.victim) && State() == e.next
                case None =>
                  && State() == old(State())
                  && (cache == {} ==> r == Err(StopIteration))
                  && (cache != {} ==> r.Ok? && r.value in cache)
    {
      ghost var s0 := State();
      var i := ScanFirstIn(prob, cache);
      if i < |prob| {
        var cand := prob[i];
        prob := RemoveFirst(prob, cand);
        assert State() == s0.(prob := prob);
        assert EvictScan(s0, cache) == Some(Eviction(cand, State()));
        TinyLfuProperties.EvictScanKeepsInv(s0, cache);
        return Ok(cand);
      }
      var j := ScanFirstIn(prot, cache);
      if j < |prot| {
        var cand := prot[j];
        prot := RemoveFirst(prot, cand);
        assert State() == s0.(prot := prot);
        assert EvictScan(s0, cache) == Some(Eviction(cand, State()));
        TinyLfuProperties.EvictScanKeepsInv(s0, cache);
        return Ok(cand);
      }
      assert EvictScan(s0, cache) == None;
      if cache == {} {
        return Err(StopIteration);
      }
      NonEmptyHasMember(cache);
      var any :| any in cache;
      r := Ok(any);
    }
  }
}

=== FILE: tiny_lfu_properties.dfy ===
/** What `TinyLFUSLRUPolicy` guarantees, proved about the functions of `TinyLfu`. */
module TinyLfuProperties {
  import opened Outcomes
  import opened Containers
  import opened TinyLfu

  // ---------------------------------------------------------------------------
  // Partition and fraction
  // ---------------------------------------------------------------------------

  /** The probation target is at least 1; with at least two slots and a
      fraction of at most one half, it leaves the protected target at least 1. */
  lemma ProbSizeLeavesProtected(c: int, fraction: real)
    requires c >= 2 && fraction <= MaxFraction
    ensures 1 <= ProbSizeFor(c, fraction) <= c - 1
  {
    var x := c as real * fraction;
    assert x <= c as real * MaxFraction by {
      assert c as real * (MaxFraction - fraction) >= 0.0;
    }
    assert x.Floor as real <= x;
  }

  /** The probation target is `floor(c * fraction)`, raised to 1 when that is smaller. */
  lemma ProbSizeIsFloor(c: int, fraction: real)
    ensures var x := c as real * fraction;
            && ProbSizeFor(c, fraction) as real <= MaxReal(1.0, x)
            && ProbSizeFor(c, fraction) as real > x - 1.0
            && (x >= 1.0 ==> ProbSizeFor(c, fraction) == x.Floor)
  {
    var x := c as real * fraction;
    assert x.Floor as real <= x < x.Floor as real + 1.0;
  }

  /** After `_repartition` the targets sum to the capacity, probation's is
      `max(1, floor(c * fraction))`, and the ghost keeps its newest entries,
      in order, up to the new probation target. Nothing else changes. */
  lemma RepartitionSpec(s: State)
    ensures var r := Repartition(s);
            && r.probSize + r.protSize == s.c
            && r.probSize as real <= MaxReal(1.0, s.c as real * s.probFraction)
            && r.probSize as real > s.c as real * s.probFraction - 1.0
            && (s.c >= 2 && s.probFraction <= MaxFraction ==> r.protSize >= 1)
            && |r.ghostProb| == (if |s.ghostProb| <= r.probSize then |s.ghostProb| else r.probSize)
            && r.ghostProb == s.ghostProb[|s.ghostProb| - |r.ghostProb|..]
            && r == s.(probSize := r.probSize, protSize := r.protSize, ghostProb := r.ghostProb)
  {
    ProbSizeIsFloor(s.c, s.probFraction);
    if s.c >= 2 && s.probFraction <= MaxFraction {
      ProbSizeLeavesProtected(s.c, s.probFraction);
    }
  }

  /** A ghost hit grows the fraction by the step, capped at one half; the
      periodic shrink lowers it by the step, floored at 0.05. With a
      non-negative step both keep it within [0.05, 0.5]. */
  lemma FractionMoves(f: real, step: real)
    requires MinFraction <= f <= MaxFraction && step >= 0.0
    ensures var grown := MinReal(MaxFraction, f + step);
            f <= grown && MinFraction <= grown <= MaxFraction
    ensures var shrunk := MaxReal(MinFraction, f - step);
            shrunk <= f && MinFraction <= shrunk <= MaxFraction
  {
  }

  // ---------------------------------------------------------------------------
  // Sliding-window frequency
  // ---------------------------------------------------------------------------

  /** With a window of maxlen at least 1, step 1 of `update` cannot raise; the
      window afterwards holds the newest accesses, in order, at most
      `windowLen - 1` of them, and `freq` still counts exactly the window.
      Nothing but the window and the counts changes. */
  lemma {:induction false} RecordAccessWindow(s: State, blk: int)
    requires WindowInv(s) && s.windowLen >= 1
    ensures var t := RecordAccess(s, blk);
            && t.outcome == Pass
            && t.next.window == KeepNewest(s.window + [blk], s.windowLen - 1)
            && WindowInv(t.next)
            && t.next == s.(window := t.next.window, freq := t.next.freq)
  {
    var w1 := s.window + [blk];
    assert KeepNewest(w1, s.windowLen) == w1;
    var freq1 := Increment(s.freq, blk);
    CountAppend(s.freq, s.window, blk);
    if |w1| == s.windowLen {
      CountPop(freq1, w1);
    }
  }

  /** Counting one more access keeps the counts exact. */
  lemma CountAppend(freq: map<int, int>, w: seq<int>, blk: int)
    requires CountsMatch(freq, w)
    ensures CountsMatch(Increment(freq, blk), w + [blk])
  {
    var freq1 := Increment(freq, blk);
    assert multiset(w + [blk]) == multiset(w) + multiset{blk};
    forall b
      ensures Get(freq1, b, 0) == multiset(w + [blk])[b]
    {
    }
  }

  /** Dropping the oldest access, and its count (the entry going at 0), keeps
      the counts exact. */
  lemma CountPop(freq: map<int, int>, w: seq<int>)
    requires CountsMatch(freq, w) && w != []
    ensures CountsMatch(Decrement(freq, w[0]), w[1..])
  {
    var oldest := w[0];
    assert w == [oldest] + w[1..];
    assert multiset(w[1..]) == multiset(w) - multiset{oldest};
    var freq2 := Decrement(freq, oldest);
    forall b
      ensures Get(freq2, b, 0) == multiset(w[1..])[b]
    {
    }
  }

  /** A window of maxlen 0 makes every `update` raise IndexError after counting `blk`. */
  lemma RecordAccessEmptyWindow(s: State, blk: int)
    requires s.windowLen == 0
    ensures UpdateStep(s, blk).outcome == Fail(IndexError)
    ensures UpdateStep(s, blk).next == s.(window := [], freq := Increment(s.freq, blk))
  {
  }

  /** The sum of the values of a map. */
  ghost function MapSum(m: map<int, int>): int
    decreases |m|
  {
    if m.Keys == {} then 0
    else
      NonEmptyHasMember(m.Keys);
      var k :| k in m.Keys;
      assert (m - {k}).Keys == m.Keys - {k};
      m[k] + MapSum(m - {k})
  }

  /** `MapSum` does not depend on which key it takes first. */
  lemma {:induction false} MapSumRemove(m: map<int, int>, k: int)
    requires k in m
    ensures MapSum(m) == m[k] + MapSum(m - {k})
    decreases |m|
  {
    NonEmptyHasMember(m.Keys);
    var j :| j in m.Keys && MapSum(m) == m[j] + MapSum(m - {j});
    if j != k {
      var mj, mk := m - {j}, m - {k};
      assert mj.Keys == m.Keys - {j} && mk.Keys == m.Keys - {k};
      assert k in mj && j in mk && mj[k] == m[k] && mk[j] == m[j];
      MapSumRemove(mj, k);
      MapSumRemove(mk, j);
      assert (mj - {k}).Keys == (mk - {j}).Keys;
      assert mj - {k} == mk - {j};
    }
  }

  /** The window counts of a sequence of accesses. */
  ghost function Counts(w: seq<int>): map<int, int> {
    map b | b in w :: multiset(w)[b]
  }

  /** The counts of a window add up to its length. */
  lemma {:induction false} CountsSum(w: seq<int>)
    ensures MapSum(Counts(w)) == |w|
  {
    if w == [] {
      assert Counts(w).Keys == {};
    } else {
      var v := w[..|w| - 1];
      var x := w[|w| - 1];
      assert w == v + [x];
      CountsSum(v);
      CountsSnoc(v, x);
      MapSumRemove(Counts(w), x);
      if x in v {
        MapSumRemove(Counts(v), x);
      } else {
        assert Counts(v) - {x} == Counts(v);
      }
    }
  }

  /** One more access to `x` adds one to its count and changes no other. */
  lemma CountsSnoc(v: seq<int>, x: int)
    ensures var m := Counts(v);
            var m' := Counts(v + [x]);
            && x in m' && m'[x] == (if x in v then m[x] else 0) + 1
            && m' - {x} == m - {x}
  {
    var m := Counts(v);
    var m' := Counts(v + [x]);
    assert multiset(v + [x]) == multiset(v) + multiset{x};
    forall b
      ensures b in m' - {x} <==> b in m - {x}
    {
      assert b in v + [x] <==> b in v || b == x;
    }
    assert (m' - {x}).Keys == (m - {x}).Keys;
  }

  /** `freq` sums to the length of the window. */
  lemma WindowCountsSum(s: State)
    requires WindowInv(s) && s.windowLen >= 1
    ensures MapSum(s.freq) == |s.window|
  {
    forall b
      ensures b in s.freq <==> b in s.window
    {
      assert Get(s.freq, b, 0) == multiset(s.window)[b];
    }
    assert s.freq.Keys == Counts(s.window).Keys;
    forall b | b in s.freq
      ensures s.freq[b] == Counts(s.window)[b]
    {
      assert Get(s.freq, b, 0) == multiset(s.window)[b];
    }
    assert s.freq == Counts(s.window);
    CountsSum(s.window);
  }

  // ---------------------------------------------------------------------------
  // Segments
  // ---------------------------------------------------------------------------

  /** Moving `blk` into protected: it fails with KeyError exactly when the
      segment is empty and its target is 0 or less (then nothing changes);
      otherwise `blk` becomes the most-recent entry, the least-recent one is
      dropped first when the segment was at or above its target, so its length
      stays within `max(len, target)`, and the segments stay disjoint. */
  lemma PromoteSpec(s: State, blk: int)
    requires SegmentInv(s) && blk !in s.prot && blk !in s.prob && blk !in s.ghostProb
    ensures var t := Promote(s, blk);
            && (t.outcome.Fail? <==> s.prot == [] && s.protSize <= 0)
            && (t.outcome.Fail? ==> t.outcome.failure == KeyError && t.next == s)
            && (t.outcome.Pass? ==>
                  && t.next == s.(prot := t.next.prot)
                  && t.next.prot == (if |s.prot| >= s.protSize then s.prot[1..] else s.prot) + [blk]
                  && |t.next.prot| <= Max(|s.prot|, s.protSize)
                  && SegmentInv(t.next))
  {
    var t := Promote(s, blk);
    if t.outcome.Pass? {
      var kept := if |s.prot| >= s.protSize then s.prot[1..] else s.prot;
      if |s.prot| >= s.protSize {
        assert s.prot == [s.prot[0]] + kept;
      }
      assert multiset(kept) <= multiset(s.prot);
      SubMultiset(kept, s.prot, s.prob);
      SubMultiset(kept, s.prot, s.ghostProb);
      assert multiset(t.next.prot) == multiset(kept) + multiset{blk};
    }
  }

  /** The admission filter: a block whose window count is below 2 is left out
      of every segment; otherwise it joins the probation tail, a full probation
      first handing its head to the ghost (which drops its own oldest entry
      when full). Probation stays within `max(len, probSize)`, and the segments
      stay disjoint with the ghost within its bound. */
  lemma AdmitSpec(s: State, blk: int)
    requires SegmentInv(s) && PartitionInv(s)
    requires blk !in s.prot && blk !in s.prob && blk !in s.ghostProb
    ensures var a := Admit(s, blk);
            && (Get(s.freq, blk, 0) < AdmitFrequency ==> a == s)
            && (Get(s.freq, blk, 0) >= AdmitFrequency ==>
                  && a.prob == (if |s.prob| >= s.probSize then s.prob[1..] else s.prob) + [blk]
                  && a.ghostProb == (if |s.prob| >= s.probSize then BoundedAppend(s.ghostProb, s.probSize, s.prob[0]) else s.ghostProb))
            && a == s.(prob := a.prob, ghostProb := a.ghostProb)
            && |a.prob| <= Max(|s.prob|, s.probSize)
            && SegmentInv(a) && PartitionInv(a)
  {
    if Get(s.freq, blk, 0) >= AdmitFrequency {
      if |s.prob| >= s.probSize {
        HeadToGhost(s.prob, s.prot, s.ghostProb, s.probSize, blk);
      } else {
        AppendFresh(s.prob, s.prot, s.ghostProb, blk);
      }
    }
  }

  /** Appending a block found in no segment to probation keeps them apart. */
  lemma AppendFresh(prob: seq<int>, prot: seq<int>, ghostProb: seq<int>, blk: int)
    requires Segments(prob, prot, ghostProb)
    requires blk !in prot && blk !in prob && blk !in ghostProb
    ensures Segments(prob + [blk], prot, ghostProb)
  {
    assert multiset(prob + [blk]) == multiset(prob) + multiset{blk};
  }

  /** Moving the probation head to a bounded ghost and appending a block found
      in no segment keeps the segments apart. */
  lemma HeadToGhost(prob: seq<int>, prot: seq<int>, ghostProb: seq<int>, n: nat, blk: int)
    requires Segments(prob, prot, ghostProb) && prob != []
    requires blk !in prot && blk !in prob && blk !in ghostProb
    ensures Segments(prob[1..] + [blk], prot, BoundedAppend(ghostProb, n, prob[0]))
  {
    var head := prob[0];
    var rest := prob[1..];
    assert prob == [head] + rest;
    assert multiset(prob) == multiset{head} + multiset(rest);
    var g := BoundedAppend(ghostProb, n, head);
    var g0 := ghostProb + [head];
    assert multiset(g0) == multiset(ghostProb) + multiset{head};
    assert multiset(g) <= multiset(g0);
    assert head in multiset(prob);
    assert head !in multiset(ghostProb) && head !in multiset(prot);
    assert NoDup(g0) by {
      forall x
        ensures multiset(g0)[x] <= 1
      {
      }
    }
    SubMultiset(g, g0, prot);
    AppendFresh(rest, prot, g0, blk) by {
      SubMultiset(rest, prob, prot);
      assert multiset(rest) !! multiset(g0) by {
        forall x | x in multiset(rest)
          ensures x !in multiset(g0)
        {
          assert multiset(prob)[head] <= 1;
        }
      }
    }
    SubMultiset(g, g0, rest + [blk]);
  }

  /** The rate test of the periodic shrink, in integers: a ghost-hit rate
      below 10% over `accesses` accesses means `10 * ghostHits < accesses`. */
  lemma ShrinkRateTest(ghostHits: nat, accesses: int)
    requires accesses >= 1
    ensures ghostHits as real / accesses as real < ShrinkBelowRate <==> 10 * ghostHits < accesses
  {
    var a := accesses as real;
    var q := ghostHits as real / a;
    assert q * a == ghostHits as real;
    ScaleStrict(q, ShrinkBelowRate, a);
  }

  /** Multiplying by a positive number keeps a strict order. */
  lemma ScaleStrict(x: real, y: real, a: real)
    requires a > 0.0
    ensures x < y <==> x * a < y * a
  {
    if x < y {
      assert (y - x) * a > 0.0;
    } else {
      assert (x - y) * a >= 0.0;
    }
  }

  /** The periodic adjustment that ends the cold path: it counts the access
      and, once the count reaches `adjustInterval`, shrinks the fraction (and
      repartitions) when `10 * ghostHits < accesses`, then resets both
      counters. The segments are not touched. */
  lemma AdjustSpec(s: State)
    ensures var a := Adjust(s);
            var fires := s.accesses + 1 >= s.adjustInterval;
            var shrinks := fires && 10 * s.ghostHits < s.accesses + 1;
            && (!fires ==> a == s.(accesses := s.accesses + 1))
            && (fires ==> a.accesses == 0 && a.ghostHits == 0)
            && (shrinks ==> a == Repartition(s.(probFraction := MaxReal(MinFraction, s.probFraction - s.adjustStep))).(accesses := 0, ghostHits := 0))
            && (fires && !shrinks ==> a == s.(accesses := 0, ghostHits := 0))
            && a.prob == s.prob && a.prot == s.prot
  {
    var accesses := s.accesses + 1;
    if accesses >= s.adjustInterval {
      var rate := s.ghostHits as real / accesses as real;
      ShrinkRateTest(s.ghostHits, accesses);
      if 10 * s.ghostHits < accesses {
        assert rate < ShrinkBelowRate;
        var r := Repartition(s.(probFraction := MaxReal(MinFraction, s.probFraction - s.adjustStep)));
        assert Adjust(s) == r.(accesses := 0, ghostHits := 0);
      } else {
        assert !(rate < ShrinkBelowRate);
        assert Adjust(s) == s.(accesses := 0, ghostHits := 0);
      }
    }
  }

  /** The adjustment keeps the segment and partition invariants, can only
      drop ghost entries, and leaves the count below the interval or 0. */
  lemma AdjustKeepsInv(s: State)
    requires SegmentInv(s) && PartitionInv(s)
    ensures var a := Adjust(s);
            && multiset(a.ghostProb) <= multiset(s.ghostProb)
            && CounterInv(a) && SegmentInv(a) && PartitionInv(a)
  {
    AdjustSpec(s);
    if s.accesses + 1 >= s.adjustInterval {
      var r := Repartition(s.(probFraction := MaxReal(MinFraction, s.probFraction - s.adjustStep)));
      SubMultiset(r.ghostProb, s.ghostProb, s.prob);
      SubMultiset(r.ghostProb, s.ghostProb, s.prot);
    }
  }

  // ---------------------------------------------------------------------------
  // `update`
  // ---------------------------------------------------------------------------

  /** Re-inserting a present element at the end keeps its multiset. */
  lemma MoveToEndMultiset(p: seq<int>, x: int)
    requires x in p
    ensures multiset(RemoveFirst(p, x) + [x]) == multiset(p)
  {
    assert multiset(RemoveFirst(p, x) + [x]) == multiset(RemoveFirst(p, x)) + multiset{x};
  }

  /** Removing a block from a duplicate-free sequence leaves no copy of it. */
  lemma RemoveFirstGone(p: seq<int>, x: int)
    requires NoDup(p)
    ensures x !in RemoveFirst(p, x)
    ensures multiset(RemoveFirst(p, x)) <= multiset(p)
  {
    assert multiset(RemoveFirst(p, x))[x] == 0;
  }

  /** A protected hit only moves `blk` to the most-recent end of protected:
      probation, ghost, targets, fraction and counters are untouched. */
  lemma {:induction false} ProtectedHit(s: State, blk: int)
    requires Inv(s) && s.windowLen >= 1 && blk in s.prot
    ensures var t := UpdateStep(s, blk);
            && t.outcome == Pass
            && t.next.prot == RemoveFirst(s.prot, blk) + [blk]
            && t.next == s.(window := t.next.window, freq := t.next.freq, prot := t.next.prot)
            && Inv(t.next)
  {
    RecordAccessWindow(s, blk);
    MoveToEndMultiset(s.prot, blk);
    var t := UpdateStep(s, blk);
    SubMultiset(t.next.prot, s.prot, s.prob);
    SubMultiset(t.next.prot, s.prot, s.ghostProb);
  }

  /** A probation hit moves `blk` from probation into protected: it leaves
      probation, becomes the most-recent protected entry after the
      least-recent one is dropped when protected is at its target, and the
      protected length stays within `max(len, protSize)`. It raises KeyError
      exactly when protected is empty with a target of 0 or less. The ghost,
      targets, fraction and counters are untouched. */
  lemma {:induction false} ProbationHit(s: State, blk: int)
    requires Inv(s) && s.windowLen >= 1 && blk !in s.prot && blk in s.prob
    ensures var t := UpdateStep(s, blk);
            && t.next.prob == RemoveFirst(s.prob, blk) && blk !in t.next.prob
            && (t.outcome.Fail? <==> s.prot == [] && s.protSize <= 0)
            && (t.outcome.Pass? ==>
                  && t.next.prot == (if |s.prot| >= s.protSize then s.prot[1..] else s.prot) + [blk]
                  && |t.next.prot| <= Max(|s.prot|, s.protSize))
            && t.next == s.(window := t.next.window, freq := t.next.freq, prob := t.next.prob, prot := t.next.prot)
            && Inv(t.next)
  {
    RecordAccessWindow(s, blk);
    var s1 := RecordAccess(s, blk).next;
    var s2 := s1.(prob := RemoveFirst(s1.prob, blk));
    RemoveFirstGone(s.prob, blk);
    SubMultiset(s2.prob, s.prob, s.prot);
    SubMultiset(s2.prob, s.prob, s.ghostProb);
    assert blk !in s.ghostProb by {
      assert blk in multiset(s.prob);
    }
    PromoteSpec(s2, blk);
  }

  /** On a ghost hit `update` is the ghost-hit bookkeeping and then the
      promotion, after step 1. */
  lemma GhostHitUnfold(s: State, blk: int)
    requires WindowInv(s) && s.windowLen >= 1 && blk !in s.prot && blk !in s.prob && blk in s.ghostProb
    ensures UpdateStep(s, blk) == Promote(GhostFeedback(RecordAccess(s, blk).next, blk), blk)
  {
    RecordAccessWindow(s, blk);
  }

  /** A ghost hit: `blk` leaves the ghost, the ghost-hit count grows, the
      fraction grows by the step capped at one half and the targets are
      recomputed from it, the ghost being trimmed to the new probation
      target. The access count and probation are untouched. */
  lemma {:induction false} GhostHitFeedback(s: State, blk: int)
    requires Inv(s) && s.windowLen >= 1 && blk !in s.prot && blk !in s.prob && blk in s.ghostProb
    ensures var t := UpdateStep(s, blk).next;
            var f := MinReal(MaxFraction, s.probFraction + s.adjustStep);
            && t.probFraction == f
            && t.probSize == ProbSizeFor(s.c, f) && t.protSize == s.c - t.probSize
            && t.ghostProb == KeepNewest(RemoveFirst(s.ghostProb, blk), t.probSize)
            && blk !in t.ghostProb
            && t.ghostHits == s.ghostHits + 1 && t.accesses == s.accesses
            && t.prob == s.prob
  {
    GhostHitUnfold(s, blk);
    RecordAccessWindow(s, blk);
    var s1 := RecordAccess(s, blk).next;
    GhostFeedbackSpec(s1, blk);
  }

  /** After the bookkeeping of a ghost hit, `blk` enters protected as after a
      probation hit, measured against the new protected target: KeyError
      exactly when protected is empty and that target is 0 or less. */
  lemma {:induction false} GhostHit(s: State, blk: int)
    requires Inv(s) && s.windowLen >= 1 && blk !in s.prot && blk !in s.prob && blk in s.ghostProb
    ensures var t := UpdateStep(s, blk);
            var protSize := s.c - ProbSizeFor(s.c, MinReal(MaxFraction, s.probFraction + s.adjustStep));
            && (t.outcome.Fail? <==> s.prot == [] && protSize <= 0)
            && (t.outcome.Pass? ==>
                  && t.next.prot == (if |s.prot| >= protSize then s.prot[1..] else s.prot) + [blk]
                  && |t.next.prot| <= Max(|s.prot|, protSize))
            && Inv(t.next)
  {
    GhostHitUnfold(s, blk);
    RecordAccessWindow(s, blk);
    var s1 := RecordAccess(s, blk).next;
    GhostFeedbackSpec(s1, blk);
    PromoteSpec(GhostFeedback(s1, blk), blk);
  }

  /** The bookkeeping of a ghost hit keeps the segments disjoint and the
      targets consistent, and leaves `blk` in no segment. */
  lemma GhostFeedbackSpec(s: State, blk: int)
    requires SegmentInv(s) && PartitionInv(s) && blk !in s.prot && blk !in s.prob && blk in s.ghostProb
    ensures var r := GhostFeedback(s, blk);
            && SegmentInv(r) && PartitionInv(r)
            && blk !in r.prot && blk !in r.prob && blk !in r.ghostProb
  {
    var g := RemoveFirst(s.ghostProb, blk);
    RemoveFirstGone(s.ghostProb, blk);
    var p := ProbSizeFor(s.c, MinReal(MaxFraction, s.probFraction + s.adjustStep));
    var kept := KeepNewest(g, p);
    assert multiset(kept) <= multiset(s.ghostProb);
    SubMultiset(kept, s.ghostProb, s.prot);
    SubMultiset(kept, s.ghostProb, s.prob);
    assert blk !in kept by {
      assert multiset(kept)[blk] <= multiset(g)[blk];
    }
  }

  /** The cold path: with `blk` in no segment, its window count after the
      access decides. Below 2, `blk` ends in no segment and probation is as
      it was; otherwise `blk` is the probation tail. Probation stays within `max(len, probSize)` and
      protected is untouched. */
  lemma {:induction false} ColdPath(s: State, blk: int)
    requires Inv(s) && s.windowLen >= 1 && blk !in s.prot && blk !in s.prob && blk !in s.ghostProb
    ensures var t := UpdateStep(s, blk);
            var count := multiset(t.next.window)[blk];
            && t.outcome == Pass
            && t.next.window == KeepNewest(s.window + [blk], s.windowLen - 1)
            && (count < AdmitFrequency ==> t.next.prob == s.prob)
            && (count < AdmitFrequency ==> blk !in t.next.prob && blk !in t.next.prot && blk !in t.next.ghostProb)
            && (count >= AdmitFrequency ==> |t.next.prob| > 0 && t.next.prob[|t.next.prob| - 1] == blk)
            && |t.next.prob| <= Max(|s.prob|, s.probSize)
            && t.next.prot == s.prot
            && Inv(t.next)
  {
    ColdPathUnfold(s, blk);
    RecordAccessWindow(s, blk);
    var s1 := RecordAccess(s, blk).next;
    var a := Admit(s1, blk);
    AdmitSpec(s1, blk);
    AdjustSpec(a);
    AdjustKeepsInv(a);
    var t := Adjust(a);
    assert t.window == s1.window && t.freq == s1.freq;
    assert WindowInv(t);
    assert Get(s1.freq, blk, 0) == multiset(t.window)[blk];
  }

  /** The counters on the cold path: the access is counted and, once the
      count reaches the interval, the fraction shrinks by the step (floored
      at 0.05) when `10 * ghostHits < accesses`, and both counters restart;
      so the count is below the interval, or 0, afterwards. */
  lemma {:induction false} ColdPathAdjustment(s: State, blk: int)
    requires Inv(s) && s.windowLen >= 1 && blk !in s.prot && blk !in s.prob && blk !in s.ghostProb
    ensures var t := UpdateStep(s, blk).next;
            && (t.accesses == 0 || t.accesses < s.adjustInterval)
            && (s.accesses + 1 < s.adjustInterval ==> t.accesses == s.accesses + 1 && t.ghostHits == s.ghostHits)
            && (s.accesses + 1 >= s.adjustInterval ==>
                  && t.accesses == 0 && t.ghostHits == 0
                  && t.probFraction == if 10 * s.ghostHits < s.accesses + 1
                                       then MaxReal(MinFraction, s.probFraction - s.adjustStep)
                                       else s.probFraction)
  {
    ColdPathUnfold(s, blk);
    RecordAccessWindow(s, blk);
    var s1 := RecordAccess(s, blk).next;
    AdmitSpec(s1, blk);
    AdjustSpec(Admit(s1, blk));
    AdjustKeepsInv(Admit(s1, blk));
  }

  /** On the cold path `update` is the admission filter and then the
      periodic adjustment, after step 1. */
  lemma ColdPathUnfold(s: State, blk: int)
    requires WindowInv(s) && s.windowLen >= 1 && blk !in s.prot && blk !in s.prob && blk !in s.ghostProb
    ensures UpdateStep(s, blk) == Step(Adjust(Admit(RecordAccess(s, blk).next, blk)), Pass)
  {
    RecordAccessWindow(s, blk);
  }

  /** Every `update` keeps the invariant, including one that raises. */
  lemma UpdateKeepsInv(s: State, blk: int)
    requires Inv(s)
    ensures Inv(UpdateStep(s, blk).next)
  {
    if s.windowLen >= 1 {
      if blk in s.prot {
        ProtectedHit(s, blk);
      } else if blk in s.prob {
        ProbationHit(s, blk);
      } else if blk in s.ghostProb {
        GhostHit(s, blk);
      } else {
        ColdPath(s, blk);
      }
    }
  }

  /** With a non-negative step, `update` keeps the fraction within [0.05, 0.5]. */
  lemma UpdateKeepsFractionInRange(s: State, blk: int)
    requires Inv(s) && FractionInRange(s) && s.adjustStep >= 0.0
    ensures FractionInRange(UpdateStep(s, blk).next)
  {
    FractionMoves(s.probFraction, s.adjustStep);
    if s.windowLen >= 1 {
      if blk in s.prot {
        ProtectedHit(s, blk);
      } else if blk in s.prob {
        ProbationHit(s, blk);
      } else if blk in s.ghostProb {
        GhostHitFeedback(s, blk);
      } else {
        ColdPathAdjustment(s, blk);
        ColdPathUnfold(s, blk);
      }
    }
  }

  // ---------------------------------------------------------------------------
  // `evict`
  // ---------------------------------------------------------------------------

  /** The scans of `evict` come up empty exactly when neither segment holds
      a member of `cache`. */
  lemma EvictScanEmpty(s: State, cache: set<int>)
    ensures EvictScan(s, cache).None? <==>
              (forall x :: x in s.prob ==> x !in cache) && (forall x :: x in s.prot ==> x !in cache)
  {
    if i :| 0 <= i < |s.prob| && s.prob[i] in cache {
      assert FirstIn(s.prob, cache) < |s.prob|;
    } else if j :| 0 <= j < |s.prot| && s.prot[j] in cache {
      assert FirstIn(s.prot, cache) < |s.prot|;
    }
  }

  /** When probation holds a member of `cache`, the victim is the first such
      entry from the head; only its entry is removed, in place, and the
      protected segment, ghost, targets, window and counters are untouched. */
  lemma EvictFromProbation(s: State, cache: set<int>)
    requires exists x :: x in s.prob && x in cache
    ensures var i := FirstIn(s.prob, cache);
            && EvictScan(s, cache) == Some(Eviction(s.prob[i], s.(prob := s.prob[..i] + s.prob[i + 1..])))
            && s.prob[i] in cache
            && (forall j :: 0 <= j < i ==> s.prob[j] !in cache)
  {
    var i := FirstIn(s.prob, cache);
    assert i < |s.prob|;
    RemoveFirstAtScan(s.prob, cache);
    assert EvictScan(s, cache) == Some(Eviction(s.prob[i], s.(prob := RemoveFirst(s.prob, s.prob[i]))));
  }

  /** Otherwise, when protected holds a member of `cache`, the victim is the
      least-recent such entry; only its entry is removed. */
  lemma EvictFromProtected(s: State, cache: set<int>)
    requires forall i :: 0 <= i < |s.prob| ==> s.prob[i] !in cache
    requires exists x :: x in s.prot && x in cache
    ensures var j := FirstIn(s.prot, cache);
            && EvictScan(s, cache) == Some(Eviction(s.prot[j], s.(prot := s.prot[..j] + s.prot[j + 1..])))
            && s.prot[j] in cache
            && (forall k :: 0 <= k < j ==> s.prot[k] !in cache)
  {
    var j := FirstIn(s.prot, cache);
    assert j < |s.prot|;
    RemoveFirstAtScan(s.prot, cache);
    assert EvictScan(s, cache) == Some(Eviction(s.prot[j], s.(prot := RemoveFirst(s.prot, s.prot[j]))));
  }

  /** A successful scan removes exactly one tracked entry and keeps the invariant. */
  lemma EvictScanKeepsInv(s: State, cache: set<int>)
    requires Inv(s) && EvictScan(s, cache).Some?
    ensures var n := EvictScan(s, cache).value.next;
            && |n.prob| + |n.prot| == |s.prob| + |s.prot| - 1
            && n.ghostProb == s.ghostProb
            && Inv(n)
  {
    var e := EvictScan(s, cache).value;
    if FirstIn(s.prob, cache) < |s.prob| {
      SubMultiset(e.next.prob, s.prob, s.prot);
      SubMultiset(e.next.prob, s.prob, s.ghostProb);
    } else {
      SubMultiset(e.next.prot, s.prot, s.prob);
      SubMultiset(e.next.prot, s.prot, s.ghostProb);
    }
  }

  // ---------------------------------------------------------------------------
  // Scenarios
  // ---------------------------------------------------------------------------

  /** The admission filter at work: in a cache of 4 with fraction 0.25, a
      block's first access leaves it out of every segment, the second admits
      it to probation, and the third promotes it to protected. */
  lemma AdmissionScenario(b: int)
    ensures var s0 := Init(4, 0.25, 10, 100, 0.05);
            var s1 := UpdateStep(s0, b).next;
            var s2 := UpdateStep(s1, b).next;
            var s3 := UpdateStep(s2, b);
            && s1.prob == [] && s1.prot == []
            && s2.prob == [b] && s2.prot == []
            && s3.outcome == Pass && s3.next.prob == [] && s3.next.prot == [b]
  {
    ColdAccess(4, 0.25, 10, 100, 0.05, b);
  }

  /** With a cache of size 1 the protected target is 0, so the first
      probation hit finds protected empty and at its target: `popitem` raises
      KeyError. The source's defaults are used for the other parameters. */
  lemma CacheOfOneRaises(b: int)
    ensures var s0 := Init(1, 0.2, 10000, 50000, 0.05);
            var s2 := UpdateStep(UpdateStep(s0, b).next, b).next;
            && s0.protSize == 0
            && s2.prob == [b]
            && UpdateStep(s2, b).outcome == Fail(KeyError)
  {
    ColdAccess(1, 0.2, 10000, 50000, 0.05, b);
  }

  /** Three accesses of one block to a fresh cache, with a window of more
      than 3 accesses and an adjustment interval above 2 so that no periodic
      adjustment fires: the block is admitted on the second and promoted on
      the third, which raises KeyError when the protected target is 0 or less. */
  lemma ColdAccess(c: int, f: real, w: nat, interval: int, step: real, b: int)
    requires w >= 4 && interval > 2
    ensures var s0 := Init(c, f, w, interval, step);
            && UpdateStep(s0, b) == Step(s0.(freq := map[b := 1], window := [b], accesses := 1), Pass)
            && UpdateStep(s0.(freq := map[b := 1], window := [b], accesses := 1), b)
               == Step(s0.(prob := [b], freq := map[b := 2], window := [b, b], accesses := 2), Pass)
            && UpdateStep(s0.(prob := [b], freq := map[b := 2], window := [b, b], accesses := 2), b)
               == if s0.protSize <= 0
                  then Step(s0.(freq := map[b := 3], window := [b, b, b], accesses := 2), Fail(KeyError))
                  else Step(s0.(prot := [b], freq := map[b := 3], window := [b, b, b], accesses := 2), Pass)
  {
    var s0 := Init(c, f, w, interval, step);
    FirstColdAccess(s0, b);
    SecondColdAccess(s0, b);
    ThirdAccess(s0, b);
  }

  lemma FirstColdAccess(s0: State, b: int)
    requires s0.windowLen >= 3 && s0.adjustInterval > 2 && s0.accesses == 0
    requires s0.prob == [] && s0.prot == [] && s0.ghostProb == [] && s0.window == [] && s0.freq == map[]
    ensures UpdateStep(s0, b) == Step(s0.(freq := map[b := 1], window := [b], accesses := 1), Pass)
  {
    assert RecordAccess(s0, b).next == s0.(freq := map[b := 1], window := [b]);
  }

  lemma SecondColdAccess(s0: State, b: int)
    requires s0.windowLen >= 3 && s0.adjustInterval > 2 && s0.probSize >= 1
    requires s0.prob == [] && s0.prot == [] && s0.ghostProb == []
    ensures UpdateStep(s0.(freq := map[b := 1], window := [b], accesses := 1), b)
            == Step(s0.(prob := [b], freq := map[b := 2], window := [b, b], accesses := 2), Pass)
  {
    var s1 := s0.(freq := map[b := 1], window := [b], accesses := 1);
    assert RecordAccess(s1, b).next == s1.(freq := map[b := 2], window := [b, b]);
  }

  lemma ThirdAccess(s0: State, b: int)
    requires s0.windowLen >= 4 && s0.prob == [] && s0.prot == [] && s0.ghostProb == []
    ensures UpdateStep(s0.(prob := [b], freq := map[b := 2], window := [b, b], accesses := 2), b)
            == if s0.protSize <= 0
               then Step(s0.(freq := map[b := 3], window := [b, b, b], accesses := 2), Fail(KeyError))
               else Step(s0.(prot := [b], freq := map[b := 3], window := [b, b, b], accesses := 2), Pass)
  {
    var s2 := s0.(prob := [b], freq := map[b := 2], window := [b, b], accesses := 2);
    assert RecordAccess(s2, b).next == s2.(freq := map[b := 3], window := [b, b, b]);
    assert RemoveFirst([b], b) == [];
  }

  /** Segment bounds are not an invariant. From a fresh cache of 4 with
      fraction 0.5 (targets 2 and 2), window 10, interval 5 and step 0.25,
      the accesses 1, 1, 2, 2 admit 1 and then 2 into probation; the cold
      access 3 completes the interval without any ghost hit, so the fraction
      falls to 0.25 and the probation target to 1, while probation keeps both
      entries. */
  lemma ProbationCanExceedTarget()
    ensures var s0 := Init(4, 0.5, 10, 5, 0.25);
            var s1 := UpdateStep(s0, 1).next;
            var s2 := UpdateStep(s1, 1).next;
            var s3 := UpdateStep(s2, 2).next;
            var s4 := UpdateStep(s3, 2).next;
            var t := UpdateStep(s4, 3);
            && s0.probSize == 2
            && s4.prob == [1, 2] && s4.probSize == 2
            && t.outcome == Pass && t.next.probSize == 1 && t.next.prob == [1, 2]
  {
    var s0 := Init(4, 0.5, 10, 5, 0.25);
    assert ProbSizeFor(4, 0.5) == 2;
    FirstColdAccess(s0, 1);
    SecondColdAccess(s0, 1);
    ShrinkRunThird();
    ShrinkRunFourth();
    ShrinkRunFifth();
  }

  /** The third access of that run: 2 is counted once and not admitted. */
  lemma ShrinkRunThird()
    ensures var s2 := Init(4, 0.5, 10, 5, 0.25).(prob := [1], freq := map[1 := 2], window := [1, 1], accesses := 2);
            UpdateStep(s2, 2) == Step(s2.(freq := map[1 := 2, 2 := 1], window := [1, 1, 2], accesses := 3), Pass)
  {
    var s2 := Init(4, 0.5, 10, 5, 0.25).(prob := [1], freq := map[1 := 2], window := [1, 1], accesses := 2);
    assert RecordAccess(s2, 2).next == s2.(freq := map[1 := 2, 2 := 1], window := [1, 1, 2]);
  }

  /** The fourth access: 2 reaches the admission count and joins probation,
      which has room. */
  lemma ShrinkRunFourth()
    ensures var s0 := Init(4, 0.5, 10, 5, 0.25);
            var s3 := s0.(prob := [1], freq := map[1 := 2, 2 := 1], window := [1, 1, 2], accesses := 3);
            UpdateStep(s3, 2) == Step(s0.(prob := [1, 2], freq := map[1 := 2, 2 := 2], window := [1, 1, 2, 2], accesses := 4), Pass)
  {
    var s0 := Init(4, 0.5, 10, 5, 0.25);
    assert ProbSizeFor(4, 0.5) == 2;
    var s3 := s0.(prob := [1], freq := map[1 := 2, 2 := 1], window := [1, 1, 2], accesses := 3);
    assert RecordAccess(s3, 2).next == s3.(freq := map[1 := 2, 2 := 2], window := [1, 1, 2, 2]);
  }

  /** The fifth access: 3 is not admitted, and the fifth access of the
      interval, with no ghost hit, shrinks the fraction to 0.25. */
  lemma ShrinkRunFifth()
    ensures var s0 := Init(4, 0.5, 10, 5, 0.25);
            var s4 := s0.(prob := [1, 2], freq := map[1 := 2, 2 := 2], window := [1, 1, 2, 2], accesses := 4);
            UpdateStep(s4, 3) == Step(s4.(probFraction := 0.25, probSize := 1, protSize := 3,
                                          freq := map[1 := 2, 2 := 2, 3 := 1], window := [1, 1, 2, 2, 3],
                                          accesses := 0, ghostHits := 0), Pass)
  {
    var s0 := Init(4, 0.5, 10, 5, 0.25);
    assert ProbSizeFor(4, 0.5) == 2;
    assert ProbSizeFor(4, 0.25) == 1;
    var s4 := s0.(prob := [1, 2], freq := map[1 := 2, 2 := 2], window := [1, 1, 2, 2], accesses := 4);
    assert RecordAccess(s4, 3).next == s4.(freq := map[1 := 2, 2 := 2, 3 := 1], window := [1, 1, 2, 2, 3]);
    assert KeepNewest<int>([], 1) == [];
  }
}
